=== FILE: README.md ===
# Proposal page behaviour, modelled in Dafny

A model of `script.js`, the single script behind a one-page proposal site. Its parts:

- **Layout**: the header height that in-page scrolls must clear (`getHeaderOffset`). Also the clamped target of a smooth scroll.
- **Menu**: the hamburger menu's five flags. These are the button's `aria-expanded` and `active`, the menu's `open` and `aria-hidden`, and the body's `mobile-menu-open`. The model covers opening, closing and toggling them.
- **Anchors**: what a click on an in-page link does. There are two handlers: one for links in the mobile menu, and one for the desktop navigation and the logo. Browser calls become an outcome value with four parts:
  - the cancelled default;
  - the requested scroll;
  - the cleared hash;
  - the console report, or the exception that escapes.
- **HeaderEffect**: the header's hide-on-scroll-down and show-on-scroll-up state machine (`handleScroll`). It is modelled as a step function and its runs.
- **Progress**: the reading-progress percentage, the choice of the active section, and the marking of the active navigation link (`updateProgressAndNav`).
- **Reveal**: the staggered `--animation-delay` values given to the `.animate-item` children of a section that scrolls into view.
- **CopyText**: the "copy" button. It covers:
  - the plain-text rendition of the document, section by section: headings underlined with `=` and `-`, meta lines, paragraphs, list items, risk definitions and the technology table;
  - the separator between sections;
  - the final clean-up, which collapses runs of line feeds and trims;
  - the tooltip and class that the click leaves.
- **Text**: the string operations the copy button relies on. These are JavaScript's `trim`, `repeat`, first-occurrence `replace`, the `/:\s+/g` colon-spacing replacement, the `/\n{3,}/g` collapse, and decimal rendering.

The DOM, the CSS custom properties and the browser's answers are inputs:

- A parsed CSS value is an `Option<int>`; `None` is `NaN`.
- A `querySelector` answer is `Found(top)`, `Missing` or `InvalidSelector`.
- Scroll positions are `real`; element offsets and window sizes are `int`.
- The copy button reads a content tree. It holds, per section: the title, the identifier, the meta paragraphs, the selected content elements with the facts the serializer reads about each, and the table rows.

The serializer uses the corrected list depth described under "Findings". The code as written is modelled beside it, in `CopyText.ListDepthAsWritten` and `CopyText.ElementTextAsWritten`.

## Model

| member | source | states |
|---|---|---|
| Layout.HeaderOffset | script.js:19-27 | The mobile height is used on mobile whether or not a header exists; otherwise the measured header, or the desktop height without one. NaN and 0 settings fall back to 60 and 70. The offset is 0 exactly for a desktop page whose header measures 0. |
| Layout.ScrollTarget | script.js:64-69 | The requested scroll top is never negative. When positive, it leaves exactly the header offset plus the 20-pixel buffer above the target. It is 0 only when the target is within that distance of the top. |
| Menu.Toggle | script.js:38-45 | A button click flips `aria-expanded` and the three classes. `aria-hidden` takes the old expanded value, so the two attributes always disagree afterwards. A synchronized menu stays synchronized. |
| Menu.ToggleTwice | script.js:38-45 | Two button clicks restore the state exactly when the attributes started as the canonical "true"/"false" pair; both directions are stated. |
| Menu.ToggleTwiceNormalizesAbsentAttribute | script.js:39-40 | A button without `aria-expanded` comes back from two clicks with "false", so the round trip is not exact there. |
| Menu.Close | script.js:53-58 | Closing from a link click leaves all five flags saying "closed", whatever the state before. |
| Menu.CloseIdempotent | script.js:53-58 | Closing twice is closing once, and a closed menu is a fixed point. |
| Anchors.MobileLinkClick | script.js:48-81 | The query at line 51 runs before the menu closes and outside any try. So an invalid selector throws with the menu untouched and no scroll. Otherwise the menu ends closed. A found target is scrolled to below the header. "#", an empty or a missing href scroll to 0, and so does "#top" when the page has no such element. Any other missing target only warns, without scrolling. The default is cancelled exactly when the handler scrolls. The hash is never cleared, and the handler never calls `console.error`. |
| Anchors.DesktopLinkClick | script.js:88-126 | "#top" scrolls to 0 and is the only href that clears the hash. A longer href scrolls to a found target below the header. A missing target is warned about. An invalid selector is caught and logged, never escaping; neither of these scrolls. The bare "#" does nothing. The default is cancelled exactly when a scroll is requested. |
| Anchors.MobileAndDesktopAgree | script.js:61-71 | For any present target other than "#top", both handlers request the same scroll position. |
| Anchors.TopLinkHandlersDiffer | script.js:73-95 | On a page with an element `#top` below the header, the mobile "#top" link scrolls to that element while the desktop one scrolls to 0. |
| HeaderEffect.Step | script.js:137-162 | Suspended (menu open or not desktop): both classes go and `lastScroll` follows the page. Near the top: both classes go and `lastScroll` stays, because of the early return. The header is hidden only on a move down past 50, and revealed only on a move up from hidden. On any other move past 50 both classes stay as they were. A valid state stays valid. |
| HeaderEffect.ScrollDownHides | script.js:151-153 | A move down past the threshold hides the header. |
| HeaderEffect.ScrollUpReveals | script.js:154-156 | A move up past the threshold from a hidden header reveals it. |
| HeaderEffect.RunKeepsValid | script.js:137-173 | Over any sequence of scroll and resize events, the header never carries both classes and `lastScroll` is never negative. |
| HeaderEffect.ReachableStatesValid | script.js:134-173 | From page load on, the same holds for every reachable state. |
| HeaderEffect.StaleLastScrollAfterTop | script.js:146-149 | The early return near the top leaves `lastScroll` at the old depth. A later move back down past the threshold but short of that depth reads as a move up, so the header stays shown. |
| Progress.ProgressPercent | script.js:185-191 | The bar's width is in [0, 100]. It is 0 when nothing is scrollable or at the top, and 100 at or past the end. In between it is the scrolled share of the scrollable distance. |
| Progress.ProgressMonotonic | script.js:188-191 | Scrolling further never moves the bar back. |
| Progress.LastCoveringId | script.js:193-204 | The scan yields the id of the last section, in document order, whose box contains the detection point. It yields the starting value when no section contains it. |
| Progress.LastCoveringExists | script.js:197-204 | When some section contains the point, a last one does. |
| Progress.ActiveSectionId | script.js:193-215 | The chosen id is empty or names a section. It is the last covering section's id when that id is non-empty. When that scan gives no id, because no section covers the detection point or the last one that does has an empty id: above the first section it is the first section's id within 100 pixels of the top and empty below that; otherwise it is the last section's id within 100 pixels of the document's end and empty elsewhere. |
| Progress.EmptyIdCoveringFallsBack | script.js:197-215 | A covering section whose id is empty does not win. With the detection point inside only such a section, below the first section's top and far from the end, nothing is highlighted. |
| Progress.ActiveLinks | script.js:218-221 | Each link is active exactly when its href is "#" followed by the chosen id. |
| Progress.AtMostOneActiveLink | script.js:218-221 | With distinct hrefs, at most one link is active. |
| Progress.BareHashActiveWithoutSection | script.js:207-221 | When no section is chosen, a link whose href is "#" is the active one. |
| Reveal.StaggerDelays | script.js:239-241 | The first item starts at once, and each later item 70 ms after its predecessor. |
| Reveal.DelayValueReadsBack | script.js:241 | The property value is decimal digits that read back as `index * 70`, the item's entry in the stagger sequence, then "ms". |
| Text.Trim | script.js:329 | The result is the slice of the input between a blank prefix and a blank suffix, with no blank edges. It is empty exactly for a blank input. |
| Text.TrimIdempotent | script.js:329 | Trimming twice is trimming once. |
| Text.TrimKeepsContent | script.js:420 | Trimming removes only blank characters. |
| Text.Repeat | script.js:303 | `c.repeat(n)` is n copies of c. |
| Text.ReplaceWithItself | script.js:364 | Replacing a pattern's first occurrence by the pattern itself changes nothing. This makes the "Action:" and "Mitigation:" replacements no-ops. |
| Text.ParseNatToString | script.js:348-349 | The decimal rendering of a number reads back as that number. |
| Text.NormalizeColonSpacing | script.js:314 | After the replacement, every colon followed by blank space is followed by exactly one space. Only blanks are removed, and the first character is kept. |
| Text.NormalizeColonSpacingOfBlank | script.js:314 | Blank text with no colon in front is left as it is. |
| Text.NormalizeColonSpacingOfPiece | script.js:314 | A colon followed by a non-empty blank run becomes ": ". Any other character followed by blanks is kept with its blanks. |
| Text.NormalizeColonSpacingAppend | script.js:314 | The replacement works piece by piece across any split just before a non-blank character. With the two rows above, this fixes the result of every input. |
| Text.CollapseNewlines | script.js:420 | After the collapse there are no three consecutive line feeds, and a first character other than a line feed is kept. |
| Text.CollapseNewlinesDropsOnlyNewlines | script.js:420 | The collapse removes line feeds and nothing else. |
| Text.CollapseNewlinesOfRun | script.js:420 | A run of three or more line feeds becomes exactly two. Shorter runs stay as they are. |
| Text.CollapseNewlinesOfChar | script.js:420 | Any character other than a line feed is kept. |
| Text.CollapseNewlinesAppend | script.js:420 | The collapse works piece by piece across any split that is not inside a run of line feeds. With the two rows above, this fixes the result of every input. |
| Text.CollapseNewlinesKeepsClean | script.js:420 | Text without a line-feed triple is left unchanged. |
| CopyText.ListDepth | script.js:337 | The corrected depth is 2 exactly for an item whose list sits inside another list, and 1 otherwise. |
| CopyText.FormatElement | script.js:326-391 | Placeholder, blank and incomplete risk rows add nothing; every other element adds text ending in a line feed. Paragraphs and plain rows give trimmed text and a blank line. List items give marker plus text, or `_text_` and a blank line for a sole `<i>` child. Risk rows give the term and then the definition indented by four. |
| CopyText.ElementText | script.js:336-353 | With the intended depth, a styled-list item starts with two spaces per level and `* `. A roadmap item starts with the same indent and its 1-based number. |
| CopyText.RoadmapItemNumber | script.js:346-350 | A roadmap item's number reads back as its 1-based position among its siblings. |
| CopyText.AsWrittenIndentsTopLevelAsNested | script.js:337-341 | As written, an item of a top-level styled list gets the nested indent. The corrected version gives it one level. |
| CopyText.TopLevelStyledItemExample | script.js:337-342 | `<ul class="styled-list"><li>A</li></ul>` renders as "    * A" as written and "  * A" corrected. |
| CopyText.TopLevelPlainItemExample | script.js:337-357 | A plain top-level `<li>B</li>` renders as "      - B" as written, through the nested branch, and "  - B" corrected. |
| CopyText.Underlined | script.js:301-307 | A heading is its trimmed text on a line, then a rule exactly as long, then a blank line. |
| CopyText.SectionStartsWithHeadings | script.js:297-308 | A section's text starts with its title block, then its identifier block. |
| CopyText.MetaLines | script.js:312-316 | Each meta paragraph gives one line ending in a line feed; the text is empty exactly when there are no paragraphs. |
| CopyText.MetaLinesOfOne | script.js:313-314 | One paragraph gives its colon-normalized, trimmed text and a line feed. |
| CopyText.MetaLinesAppend | script.js:312-316 | Paragraphs are rendered in order, one after another. With the row above this fixes the meta lines of every panel. |
| CopyText.MetaText | script.js:310-318 | Without a meta panel nothing is added. With one, its lines are followed by exactly one more line feed, which leaves a blank line. |
| CopyText.RowText | script.js:397-406 | A table row adds nothing exactly when it has fewer than 2 cells (total row) or 4 cells (other rows). A total row gives its first two cells, trimmed, with a space between. Any other row gives a bullet, the first cell, the second in parentheses, a colon and the fourth cell. |
| CopyText.RowTextIgnoresThirdCell | script.js:401-405 | The third cell of a row never reaches the text. |
| CopyText.RowsTextAppend | script.js:397-407 | Table rows are rendered in order, one after another. |
| CopyText.RowsText | script.js:397-407 | A table whose rows all render empty adds nothing between its banner and its closing line feed. |
| CopyText.TableText | script.js:394-409 | Without a table nothing is added. With one, the text is the "--- Technology Stack ---" line, the rows' texts, then one line feed. |
| CopyText.SectionText | script.js:297-409 | A section's text starts with its heading blocks. |
| CopyText.SectionTextOrder | script.js:297-409 | A section's text starts with the heading blocks followed by the meta panel, and ends with the table. |
| CopyText.JoinByAppending | script.js:297-415 | Appending each section's text, and the separator after every section but the last, yields the texts joined by the separator. |
| CopyText.GenerateText | script.js:294-415 | The raw copy text is the sections' texts joined by a line of forty dashes set off by blank lines. |
| CopyText.CleanText | script.js:420 | The cleaned text is what is left of the collapsed text once a blank prefix and a blank suffix are cut off. It has no line-feed triple and no blank edge, and only blank characters were removed. |
| CopyText.CleanTextIdempotent | script.js:420 | Cleaning cleaned text changes nothing. |
| CopyText.CopyClick | script.js:284-291 | Without `main.main-content` nothing is written. Otherwise the cleaned text of all sections is written, and the outcome says whether the clipboard accepted it. |
| CopyText.Feedback | script.js:284-431 | The button gets class `success` exactly for a completed copy and `error` otherwise. The tooltip says "Copied!" exactly for a completed copy, "Copy Failed!" exactly for a clipboard failure, and "Error: Content not found" exactly for a missing content root. |
| CopyText.ExampleDocumentText | script.js:297-420 | With the corrected list depth, a section titled "Title" with paragraph "Hello" and a top-level styled item "A" copies as "Title\n=====\n\nHello\n\n  * A". |

## Left out

- Timing is not modelled: `throttle`, `debounce`, `requestAnimationFrame` and the `setTimeout` delays before a scroll or before a class is removed. Each handler run is one atomic step.
- The tooltip's timer bookkeeping (`showTooltip`) is not modelled; `Feedback` models only the message and class it sets.
- `IntersectionObserver` wiring, the section's `visible` class and the one-shot `unobserve` are left out. Only the delay values are modelled.
- Smooth scrolling, `navigator.clipboard`, `window.print`, `history.pushState` and the console are not modelled. They appear as outcome values or parameters. `clearHash` assumes `history.pushState` exists.
- `getComputedStyle` and `parseInt` are not modelled. Their parsed value, or NaN, is an input.
- The `<strong>` regular expression on the meta panel's `innerHTML` (script.js:314) is left out. Meta paragraphs arrive with the tags already removed, because the model has no HTML.
- `setupWillChange` is left out: it sets rendering hints only.
- The set-up guards for missing elements (script.js:36, 133, 181, 232) are left out. A page without them installs no handler.
- `Text.Trim` uses a fixed set of blank characters, and `Text.NormalizeColonSpacing` the same set for `\s`. This covers the ASCII blanks, no-break space, BOM and the line and paragraph separators. It omits the rarer Unicode space separators that JavaScript also counts.
- String lengths count characters, not UTF-16 code units, so `repeat` after an astral-plane heading differs.
- Positions are exact reals, not floating point.
- The `el.tagName === 'I'` test at script.js:385 is left out: the selector never yields an `<i>`.
- The unused `headerHeight` at script.js:140 is left out.
- CopyText.GenerateText: uses the corrected list depth (`CopyText.ListDepth`), not the one at script.js:337. As written, every list item is indented as nested.
- CopyText.CopyClick: writes the text built with the corrected list depth, not the one at script.js:337.
- CopyText.ExampleDocumentText: states the corrected copy. As written, the program copies "Title\n=====\n\nHello\n\n    * A".
- Text.ReplaceFirst: does not model the `$` patterns of JavaScript's `replace`. The replacements "Action:" and "Mitigation:" contain no `$`, so `Text.ReplaceWithItself` holds for them. For a replacement with `$&` or `$1` it would not.

## Findings

| source | as written | input that shows it | evidently intended | confidence | as-written member | corrected member |
|---|---|---|---|---|---|---|
| script.js:337 | `el.closest('ul, ol')?.closest('ul, ol')` calls `closest` again on the list the first call found. `closest` includes the element itself, so it returns that same list and every list item gets depth 2. | `<ul class="styled-list"><li>A</li></ul>` in a panel renders as "    * A", indented like a nested item. A plain top-level `<li>B</li>` renders as "      - B", so the default `'  - '` at script.js:355-357 is never reached. | Depth 2 only for an item whose list is nested in another list, so the example renders as "  * A". | not executed; high, from the semantics of `closest` | CopyText.AsWrittenIndentsTopLevelAsNested | CopyText.ListDepth |

=== FILE: anchors.dfy ===
/**
  What a click on an in-page link does: the mobile-menu links (which also close the menu)
  and the desktop navigation and logo links. The browser calls become an outcome value:
  whether the default navigation is cancelled, which `window.scrollTo` is requested,
  whether the URL hash is cleared, and what is reported on the console.
*/
module Anchors {
  import opened Wrappers
  import Layout
  import Menu

  /** `document.querySelector(targetId)`: the element's absolute top (its bounding
      rectangle's top plus the page offset, read when the scroll happens), no match, or
      the SyntaxError thrown for a string that is not a valid selector. */
  datatype Lookup = Found(top: real) | Missing | InvalidSelector

  datatype ScrollRequest = NoScroll | ScrollTo(top: real)

  datatype Report = Quiet | Warning | ErrorLogged | Uncaught

  datatype ClickOutcome = ClickOutcome(
    preventDefault: bool,   // e.preventDefault() was called
    scroll: ScrollRequest,  // window.scrollTo({ top, behavior: 'smooth' })
    clearHash: bool,        // history.pushState to the URL without its hash
    report: Report)         // console.warn / console.error / an exception escaping the handler

  /** Every scroll the handlers request is to a non-negative position. */
  predicate ScrollNonNegative(o: ClickOutcome) {
    o.scroll.ScrollTo? ==> o.scroll.top >= 0.0
  }

  /** The mobile handler queries the document only for a non-empty href other than "#". */
  predicate MobileQueries(href: Option<string>) {
    href.Some? && href.value != "" && href.value != "#"
  }

  /** Click on a link inside the mobile menu. `href` is the link's attribute (`None` when
      absent); `lookup` is what querying it returns, consulted only when the handler
      queries; `headerOffset` is the header height when the delayed scroll runs.

      The query happens before the menu is closed and outside any try block, so an
      invalid selector throws out of the handler: the menu stays as it was and the
      browser follows the link. Otherwise the menu ends fully closed, and then a found
      target is scrolled to below the header, "#top", "#", an empty or a missing href
      scroll to 0, and any other target is only warned about. The default navigation is
      cancelled exactly when the handler scrolls by itself. */
  function MobileLinkClick(m: Menu.MenuState, href: Option<string>, lookup: Lookup, headerOffset: int)
    : (r: (Menu.MenuState, ClickOutcome))
    ensures ScrollNonNegative(r.1)
    ensures r.1.preventDefault <==> r.1.scroll.ScrollTo?
    ensures MobileQueries(href) && lookup.InvalidSelector? <==> r.1.report.Uncaught?
    ensures r.1.report.Uncaught? ==> r.0 == m && r.1.scroll.NoScroll?
    ensures !r.1.report.Uncaught? ==> Menu.IsClosed(r.0)
    ensures MobileQueries(href) && lookup.Found? ==>
              r.1.scroll == ScrollTo(Layout.ScrollTarget(lookup.top, headerOffset))
    ensures !MobileQueries(href) ==> r.1.scroll == ScrollTo(0.0)
    ensures MobileQueries(href) && lookup.Missing? && href == Some("#top") ==> r.1.scroll == ScrollTo(0.0)
    ensures r.1.report.Warning? <==> MobileQueries(href) && lookup.Missing? && href != Some("#top")
    ensures r.1.report.Warning? ==> r.1.scroll.NoScroll?
    ensures !r.1.report.ErrorLogged?
    ensures !r.1.clearHash
  {
    var targetId := href;
    var queries := MobileQueries(targetId);
    if queries && lookup.InvalidSelector? then
      (m, ClickOutcome(false, NoScroll, false, Uncaught))
    else
      var closed := Menu.Close(m);
      if queries && lookup.Found? then
        (closed, ClickOutcome(true, ScrollTo(Layout.ScrollTarget(lookup.top, headerOffset)), false, Quiet))
      else if targetId == Some("#top") || !queries then
        (closed, ClickOutcome(true, ScrollTo(0.0), false, Quiet))
      else
        (closed, ClickOutcome(false, NoScroll, false, Warning))
  }

  /** Click on a desktop navigation link or the logo. The selectors that attach the handler
      only match links whose href starts with "#". "#top" always scrolls to 0 and clears the
      hash, without querying. Any longer href is queried inside a try block: found targets
      are scrolled to below the header, a missing one is warned about, an invalid selector
      is logged as an error. The bare "#" is left to the browser. */
  function DesktopLinkClick(href: string, lookup: Lookup, headerOffset: int): (o: ClickOutcome)
    requires |href| > 0 && href[0] == '#'
    ensures ScrollNonNegative(o)
    ensures o.preventDefault <==> o.scroll.ScrollTo?
    ensures o.clearHash <==> href == "#top"
    ensures href == "#top" ==> o.scroll == ScrollTo(0.0)
    ensures href != "#top" && lookup.Found? && |href| > 1 ==>
              o.scroll == ScrollTo(Layout.ScrollTarget(lookup.top, headerOffset))
    ensures href != "#top" && !lookup.Found? ==> o.scroll.NoScroll?
    ensures o.report.Warning? <==> href != "#top" && |href| > 1 && lookup.Missing?
    ensures o.report.ErrorLogged? <==> href != "#top" && |href| > 1 && lookup.InvalidSelector?
    ensures href == "#" ==> o == ClickOutcome(false, NoScroll, false, Quiet)
    ensures !o.report.Uncaught?
  {
    if href == "#top" then
      ClickOutcome(true, ScrollTo(0.0), true, Quiet)
    else if |href| > 1 then
      match lookup
      case Found(top) => ClickOutcome(true, ScrollTo(Layout.ScrollTarget(top, headerOffset)), false, Quiet)
      case Missing => ClickOutcome(false, NoScroll, false, Warning)
      case InvalidSelector => ClickOutcome(false, NoScroll, false, ErrorLogged)
    else
      ClickOutcome(false, NoScroll, false, Quiet)
  }

  /** For any target other than "#top" that the document has, both handlers ask for the
      same scroll position. */
  lemma MobileAndDesktopAgree(m: Menu.MenuState, href: string, top: real, headerOffset: int)
    requires |href| > 1 && href[0] == '#' && href != "#top"
    ensures MobileLinkClick(m, Some(href), Found(top), headerOffset).1.scroll
         == DesktopLinkClick(href, Found(top), headerOffset).scroll
  {
  }

  /** They differ on "#top" when the page has an element with id "top": the mobile menu
      scrolls to that element below the header, the desktop link to the very top. */
  lemma TopLinkHandlersDiffer(m: Menu.MenuState, top: real, headerOffset: int)
    requires top > headerOffset as real + Layout.ScrollBuffer as real
    ensures MobileLinkClick(m, Some("#top"), Found(top), headerOffset).1.scroll
         != DesktopLinkClick("#top", Found(top), headerOffset).scroll
  {
  }
}

=== FILE: copy_text.dfy ===
/**
  The "copy" button: the plain-text rendition of the document's `main.main-content`
  element, built section by section, cleaned up, and handed to the clipboard.

  The DOM arrives as a content tree holding what the serializer reads from it: for each
  `.section` its first `h1`/`h2`, its `h3.section-identifier`, the paragraphs of its
  `.panel-meta`, the content elements its selector picks in document order, and the
  body rows of its `.tech-stack-table`.
*/
module CopyText {
  import opened Wrappers
  import opened Text

  // ---------------------------------------------------------------- content tree

  /** What the serializer reads around an `<li>`. */
  datatype ListItem = ListItem(
    parentClasses: set<string>,  // classList of the parent element
    listAncestors: nat,          // how many <ul>/<ol> elements enclose the item
    childIndex: nat,             // 0-based position among the parent's element children
    strong: Option<string>,      // textContent of the first <strong> inside, if any
    soleItalicChild: bool)       // exactly one element child, and it is an <i>

  /** The three element kinds the content selector can yield: `.content > p`, the list
      items of the panels' lists, and the `<div>` rows of `.panel > dl`. */
  datatype Kind =
    | Paragraph
    | Item(li: ListItem)
    | DefinitionRow(inRiskList: bool, term: Option<string>, definition: Option<string>)

  /** A content element: its kind, its textContent, and whether it sits inside a
      `.placeholder-flowchart`. */
  datatype Element = Element(kind: Kind, text: string, inPlaceholder: bool)

  /** A `tbody tr` of the technology table: the `total-row` class and its cells' text. */
  datatype Row = Row(isTotal: bool, cells: seq<string>)

  datatype Section = Section(
    title: Option<string>,        // first h1/h2
    identifier: Option<string>,   // h3.section-identifier
    meta: Option<seq<string>>,    // paragraphs of .panel-meta, <strong> tags already removed
    elements: seq<Element>,
    table: Option<seq<Row>>)      // body rows of .tech-stack-table

  // ---------------------------------------------------------------- list items

  /** List nesting as the code computes it: `el.closest('ul, ol')?.closest('ul, ol')`.
      `closest` starts its search at the element it is called on, so the second call
      returns the list the first one found, and every item inside any list gets depth 2. */
  function ListDepthAsWritten(listAncestors: nat): (depth: nat) {
    if listAncestors >= 1 then 2 else 1
  }

  /** List nesting as evidently intended: depth 2 exactly for an item whose list is itself
      inside another list, depth 1 otherwise. */
  function ListDepth(listAncestors: nat): (depth: nat)
    ensures depth == 1 || depth == 2
    ensures depth == 2 <==> listAncestors >= 2
  {
    if listAncestors >= 2 then 2 else 1
  }

  /** `'  '.repeat(depth)`. */
  function Indent(depth: nat): (spaces: string) {
    Repeat(' ', 2 * depth)
  }

  /** The marker put before a list item, chosen by the first of its parent's classes that
      applies: `*` for styled lists, `-` for pillar lists, the item's 1-based position for
      roadmap details, an indented `-` for nested lists and anything deeper than depth 1,
      and a plain `-` otherwise. */
  function ItemPrefix(li: ListItem, depth: nat): (prefix: string) {
    var classes := li.parentClasses;
    if "styled-list" in classes then Indent(depth) + "* "
    else if "pillar-list" in classes then "  - "
    else if "roadmap-details" in classes then Indent(depth) + NatToString(li.childIndex + 1) + ". "
    else if "nested-list" in classes || depth > 1 then Indent(depth) + "  - "
    else "  - "
  }

  /** The item holds a `<strong>` whose text mentions "Action:". */
  predicate MentionsAction(li: ListItem) {
    li.strong.Some? && IndexOf(li.strong.value, "Action:").Some?
  }

  // ---------------------------------------------------------------- content elements

  /** The element contributes nothing: it is inside the placeholder flowchart, its text
      is blank, or it is a risk-list row lacking its term or its definition. */
  predicate Skipped(e: Element) {
    || e.inPlaceholder
    || AllWs(e.text)
    || (e.kind.DefinitionRow? && e.kind.inRiskList && (e.kind.term.None? || e.kind.definition.None?))
  }

  /** The text one content element adds, for a given list depth. The "Action:" and
      "Mitigation:" replacements of the code replace a string by itself; the contract
      states the result with them gone. Skipped elements add nothing, every other one adds
      text ending in a line feed: a paragraph or a row outside the risk list its trimmed
      text and a blank line; a list item its marker, its trimmed text and a line feed, or,
      when its only child is an `<i>`, its marker, its text between underscores and a
      blank line; a risk row its term, then its definition on a line indented by four. */
  function FormatElement(e: Element, depth: nat): (r: string)
    ensures r == "" <==> Skipped(e)
    ensures r != "" ==> r[|r| - 1] == '\n'
    ensures !Skipped(e) && (e.kind.Paragraph? || (e.kind.DefinitionRow? && !e.kind.inRiskList)) ==>
              r == Trim(e.text) + "\n\n"
    ensures !Skipped(e) && e.kind.Item? && !e.kind.li.soleItalicChild ==>
              r == ItemPrefix(e.kind.li, depth) + Trim(e.text) + "\n"
    ensures !Skipped(e) && e.kind.Item? && e.kind.li.soleItalicChild ==>
              r == ItemPrefix(e.kind.li, depth) + "_" + Trim(e.text) + "_" + "\n\n"
    ensures !Skipped(e) && e.kind.DefinitionRow? && e.kind.inRiskList ==>
              r == Trim(e.kind.term.value) + "\n    " + Trim(e.kind.definition.value) + "\n\n"
  {
    if e.inPlaceholder then ""
    else
      var text := Trim(e.text);
      if text == [] then ""
      else
        match e.kind
        case Paragraph => text + "\n\n"
        case Item(li) =>
          var prefix := ItemPrefix(li, depth);
          var body := if MentionsAction(li) then Trim(ReplaceFirst(text, "Action:", "Action:")) else text;
          ReplaceWithItself(text, "Action:");
          TrimOfTrimmed(text);
          if li.soleItalicChild then prefix + "_" + body + "_" + "\n\n" else prefix + body + "\n"
        case DefinitionRow(inRiskList, term, definition) =>
          if !inRiskList then text + "\n\n"
          else if term.Some? && definition.Some? then
            ReplaceWithItself(definition.value, "Mitigation:");
            Trim(term.value) + "\n    " + Trim(ReplaceFirst(definition.value, "Mitigation:", "Mitigation:")) + "\n\n"
          else ""
  }

  /** The depth the code gives an element: only list items have one. */
  function DepthAsWritten(e: Element): (depth: nat) {
    if e.kind.Item? then ListDepthAsWritten(e.kind.li.listAncestors) else 1
  }

  /** The text of a content element exactly as the code renders it. */
  function ElementTextAsWritten(e: Element): (r: string) {
    FormatElement(e, DepthAsWritten(e))
  }

  /** The text of a content element with the intended list depth, as used by the rest of
      the serializer. A styled-list item is indented by two spaces per level and marked
      `* `; a roadmap item is indented the same way and numbered by its position; the
      deeper indent goes exactly to items of a list nested in another list. */
  function ElementText(e: Element): (r: string)
    ensures r == "" <==> Skipped(e)
    ensures !Skipped(e) && e.kind.Item? && "styled-list" in e.kind.li.parentClasses ==>
              Indent(if e.kind.li.listAncestors >= 2 then 2 else 1) + "* " <= r
    ensures !Skipped(e) && e.kind.Item? && "roadmap-details" in e.kind.li.parentClasses
            && "styled-list" !in e.kind.li.parentClasses && "pillar-list" !in e.kind.li.parentClasses ==>
              Indent(if e.kind.li.listAncestors >= 2 then 2 else 1)
              + NatToString(e.kind.li.childIndex + 1) + ". " <= r
  {
    var depth := if e.kind.Item? then ListDepth(e.kind.li.listAncestors) else 1;
    FormatElement(e, depth)
  }

  /** A roadmap item's number reads back as its 1-based position among its siblings. */
  lemma RoadmapItemNumber(e: Element)
    requires !Skipped(e) && e.kind.Item?
    requires "roadmap-details" in e.kind.li.parentClasses
    requires "styled-list" !in e.kind.li.parentClasses && "pillar-list" !in e.kind.li.parentClasses
    ensures var number := NatToString(e.kind.li.childIndex + 1);
            var indent := Indent(ListDepth(e.kind.li.listAncestors));
            && indent + number + ". " <= ElementText(e)
            && ParseNat(ElementText(e)[|indent|..|indent| + |number|]) == e.kind.li.childIndex + 1
  {
    var number := NatToString(e.kind.li.childIndex + 1);
    var indent := Indent(ListDepth(e.kind.li.listAncestors));
    var prefix := indent + number + ". ";
    var r := ElementText(e);
    assert prefix <= r;
    assert prefix[|indent|..|indent| + |number|] == number;
    SliceOfPrefix(prefix, r, |indent|, |indent| + |number|);
    ParseNatToString(e.kind.li.childIndex + 1);
  }

  /** A slice that lies within a prefix is the same slice of the whole. */
  lemma SliceOfPrefix(p: string, r: string, i: nat, j: nat)
    requires p <= r && i <= j <= |p|
    ensures r[i..j] == p[i..j]
  {
    assert r[..|p|] == p;
    assert r[i..j] == r[..|p|][i..j];
  }

  /** The code's depth check cannot tell a top-level list from a nested one: an item of a
      styled list that sits in no other list is indented like a nested item. */
  lemma AsWrittenIndentsTopLevelAsNested(e: Element)
    requires !Skipped(e) && e.kind.Item? && "styled-list" in e.kind.li.parentClasses
    requires e.kind.li.listAncestors == 1
    ensures Indent(2) + "* " <= ElementTextAsWritten(e)
    ensures Indent(1) + "* " <= ElementText(e)
    ensures ElementTextAsWritten(e) != ElementText(e)
  {
    var written := ElementTextAsWritten(e);
    var r := ElementText(e);
    assert Indent(2) + "* " <= written by {
      assert written == Indent(2) + "* " + Trim(e.text) + "\n"
          || written == Indent(2) + "* " + "_" + Trim(e.text) + "_" + "\n\n";
    }
    assert Indent(1) == "  " && Indent(2) == "    ";
    assert r[2] == (Indent(1) + "* ")[2] == '*';
    assert written[2] == (Indent(2) + "* ")[2] == ' ';
  }

  /** The smallest case: `<ul class="styled-list"><li>A</li></ul>` in a panel. */
  lemma TopLevelStyledItemExample()
    ensures var e := Element(Item(ListItem({"styled-list"}, 1, 0, None, false)), "A", false);
            ElementTextAsWritten(e) == "    * A\n" && ElementText(e) == "  * A\n"
  {
    var e := Element(Item(ListItem({"styled-list"}, 1, 0, None, false)), "A", false);
    assert !AllWs(e.text) by { assert !IsWs(e.text[0]); }
    assert Trim("A") == "A" by { TrimOfTrimmed("A"); }
    assert Indent(2) == "    ";
    assert Indent(1) == "  ";
  }

  /** The same effect on a plain item of a top-level list: as written it takes the nested
      branch, so the code's plain "  - " marker is never used for an item inside a list. */
  lemma TopLevelPlainItemExample()
    ensures var e := Element(Item(ListItem({}, 1, 0, None, false)), "B", false);
            ElementTextAsWritten(e) == "      - B\n" && ElementText(e) == "  - B\n"
  {
    var e := Element(Item(ListItem({}, 1, 0, None, false)), "B", false);
    assert !AllWs(e.text) by { assert !IsWs(e.text[0]); }
    assert Trim("B") == "B" by { TrimOfTrimmed("B"); }
    assert Indent(2) == "    ";
  }

  /** Text of a run of content elements in document order. */
  function ElementsText(elements: seq<Element>): (text: string) {
    if elements == [] then "" else ElementText(elements[0]) + ElementsText(elements[1..])
  }

  // ---------------------------------------------------------------- section text

  /** A heading line followed by a rule of `rule` characters exactly as long as the trimmed
      heading, then a blank line. */
  function Underlined(heading: string, rule: char): (block: string)
    ensures var t := Trim(heading);
            && |block| == 2 * |t| + 3
            && block[..|t|] == t && block[|t|] == '\n'
            && (forall k :: |t| < k <= 2 * |t| ==> block[k] == rule)
            && block[2 * |t| + 1..] == "\n\n"
  {
    var t := Trim(heading);
    t + "\n" + Repeat(rule, |t|) + "\n\n"
  }

  /** Title underlined with `=`, then the section identifier underlined with `-`. */
  function HeadingText(sec: Section): (h: string) {
    (if sec.title.Some? then Underlined(sec.title.value, '=') else "")
    + (if sec.identifier.Some? then Underlined(sec.identifier.value, '-') else "")
  }

  /** The meta paragraphs, each with its colon spacing normalized, trimmed, on its own line. */
  function MetaLines(lines: seq<string>): (text: string)
    ensures text == "" <==> lines == []
    ensures lines != [] ==> text[|text| - 1] == '\n'
    ensures |text| >= |lines|
  {
    if lines == [] then "" else Trim(NormalizeColonSpacing(lines[0])) + "\n" + MetaLines(lines[1..])
  }

  /** A single paragraph gives one line: its normalized, trimmed text and a line feed. */
  lemma MetaLinesOfOne(line: string)
    ensures MetaLines([line]) == Trim(NormalizeColonSpacing(line)) + "\n"
  {
    assert [line][1..] == [];
  }

  /** The paragraphs are rendered one after another, so the lines of two runs of
      paragraphs are the lines of the first followed by those of the second. */
  lemma {:induction false} MetaLinesAppend(a: seq<string>, b: seq<string>)
    ensures MetaLines(a + b) == MetaLines(a) + MetaLines(b)
    decreases |a|
  {
    if a == [] {
      assert a + b == b;
    } else {
      assert (a + b)[0] == a[0];
      assert (a + b)[1..] == a[1..] + b;
      MetaLinesAppend(a[1..], b);
      ConcatAssoc(Trim(NormalizeColonSpacing(a[0])) + "\n", MetaLines(a[1..]), MetaLines(b));
    }
  }

  /** The meta panel's lines and a blank line, when the section has a meta panel: nothing
      without a panel; otherwise the lines followed by exactly one more line feed. */
  function MetaText(meta: Option<seq<string>>): (text: string)
    ensures meta.None? <==> text == ""
    ensures meta.Some? ==>
              && MetaLines(meta.value) <= text
              && |text| == |MetaLines(meta.value)| + 1
              && text[|text| - 1] == '\n'
  {
    if meta.Some? then MetaLines(meta.value) + "\n" else ""
  }

  const Bullet: char := '\U{2022}'

  /** One table row: a total row with two cells shows both, separated by a space; another
      row with four cells shows, after a bullet, the first cell, the second in parentheses
      and the fourth after a colon; any shorter row shows nothing. */
  function RowText(row: Row): (r: string)
    ensures r == "" <==> |row.cells| < (if row.isTotal then 2 else 4)
    ensures row.isTotal && |row.cells| >= 2 ==>
              r == Trim(row.cells[0]) + " " + Trim(row.cells[1]) + "\n"
    ensures !row.isTotal && |row.cells| >= 4 ==>
              r == "  " + [Bullet] + " " + Trim(row.cells[0]) + " (" + Trim(row.cells[1]) + "): "
                   + Trim(row.cells[3]) + "\n"
  {
    var cells := row.cells;
    if row.isTotal then
      if |cells| >= 2 then Trim(cells[0]) + " " + Trim(cells[1]) + "\n" else ""
    else if |cells| >= 4 then
      "  " + [Bullet] + " " + Trim(cells[0]) + " (" + Trim(cells[1]) + "): " + Trim(cells[3]) + "\n"
    else ""
  }

  /** The third cell never shows: a row reads the same whatever it holds. */
  lemma RowTextIgnoresThirdCell(row: Row, other: string)
    requires |row.cells| >= 3
    ensures RowText(Row(row.isTotal, row.cells[2 := other])) == RowText(row)
  {
    var changed := row.cells[2 := other];
    assert changed[0] == row.cells[0] && changed[1] == row.cells[1];
    assert |changed| >= 4 ==> changed[3] == row.cells[3];
  }

  /** The rows' texts in order. */
  function RowsText(rows: seq<Row>): (text: string)
    ensures (forall i :: 0 <= i < |rows| ==> RowText(rows[i]) == "") ==> text == ""
  {
    if rows == [] then "" else RowText(rows[0]) + RowsText(rows[1..])
  }

  /** The rows are rendered one after another, so two runs of rows give the text of the
      first followed by that of the second. */
  lemma {:induction false} RowsTextAppend(a: seq<Row>, b: seq<Row>)
    ensures RowsText(a + b) == RowsText(a) + RowsText(b)
    decreases |a|
  {
    if a == [] {
      assert a + b == b;
    } else {
      assert (a + b)[0] == a[0];
      assert (a + b)[1..] == a[1..] + b;
      RowsTextAppend(a[1..], b);
      ConcatAssoc(RowText(a[0]), RowsText(a[1..]), RowsText(b));
    }
  }

  const TableBanner: string := "--- Technology Stack ---\n"

  /** The technology table, when the section has one: the banner line, the rows, and a
      closing line feed; nothing without a table. */
  function TableText(table: Option<seq<Row>>): (text: string)
    ensures table.None? <==> text == ""
    ensures table.Some? ==>
              && TableBanner <= text
              && |text| == |TableBanner| + |RowsText(table.value)| + 1
              && text[|text| - 1] == '\n'
              && text[|TableBanner|..|text| - 1] == RowsText(table.value)
  {
    if table.Some? then TableBanner + RowsText(table.value) + "\n" else ""
  }

  /** The text of one section: headings, meta panel, content elements, table. */
  function SectionText(sec: Section): (r: string)
    ensures HeadingText(sec) <= r
  {
    var heading := HeadingText(sec);
    var rest := MetaText(sec.meta) + ElementsText(sec.elements) + TableText(sec.table);
    PrefixOfAppend(heading, rest);
    heading + rest
  }

  /** The parts of a section come in the program's order: the text starts with the
      headings followed by the meta panel, and ends with the table. */
  lemma SectionTextOrder(sec: Section)
    ensures HeadingText(sec) + MetaText(sec.meta) <= SectionText(sec)
    ensures var r := SectionText(sec);
            var table := TableText(sec.table);
            |table| <= |r| && r[|r| - |table|..] == table
  {
    var heading, meta, body, table :=
      HeadingText(sec), MetaText(sec.meta), ElementsText(sec.elements), TableText(sec.table);
    assert SectionText(sec) == heading + (meta + body + table);
    PartsInOrder(heading, meta, body, table);
  }

  /** Four strings joined: the first two form a prefix and the last is a suffix. */
  lemma PartsInOrder(a: string, b: string, c: string, d: string)
    ensures a + b <= a + (b + c + d)
    ensures var r := a + (b + c + d); |d| <= |r| && r[|r| - |d|..] == d
  {
    var r := a + (b + c + d);
    assert r == (a + b) + (c + d);
    PrefixOfAppend(a + b, c + d);
  }

  /** A section with a title starts with the title and a `=` rule as long as the trimmed
      title, followed by the identifier and its `-` rule when it has one; a section with
      only an identifier starts with that. */
  lemma SectionStartsWithHeadings(sec: Section)
    ensures sec.title.Some? && sec.identifier.Some? ==>
              Underlined(sec.title.value, '=') + Underlined(sec.identifier.value, '-') <= SectionText(sec)
    ensures sec.title.Some? ==> Underlined(sec.title.value, '=') <= SectionText(sec)
    ensures sec.title.None? && sec.identifier.Some? ==> Underlined(sec.identifier.value, '-') <= SectionText(sec)
  {
    var r := SectionText(sec);
    if sec.title.Some? && sec.identifier.Some? {
      var t := Underlined(sec.title.value, '=');
      PrefixOfAppend(t, Underlined(sec.identifier.value, '-'));
      PrefixTransitive(t, HeadingText(sec), r);
    }
  }

  lemma PrefixTransitive(a: string, b: string, c: string)
    requires a <= b && b <= c
    ensures a <= c
  {
  }

  lemma PrefixOfAppend(a: string, b: string)
    ensures a <= a + b
  {
    assert (a + b)[..|a|] == a;
  }

  // ---------------------------------------------------------------- whole document

  /** Put between two sections: a line of forty dashes set off by blank lines. */
  const SectionSeparator: string := "\n----------------------------------------\n\n"

  /** The entries with `sep` between each consecutive pair and nowhere else. */
  function Join(texts: seq<string>, sep: string): (joined: string) {
    if |texts| == 0 then ""
    else if |texts| == 1 then texts[0]
    else texts[0] + sep + Join(texts[1..], sep)
  }

  /** Appending an entry to a non-empty list adds one separator and the entry. */
  lemma {:induction false} JoinSnoc(texts: seq<string>, sep: string, last: string)
    requires |texts| > 0
    ensures Join(texts + [last], sep) == Join(texts, sep) + sep + last
    decreases |texts|
  {
    var all := texts + [last];
    if |texts| == 1 {
      assert all[1..] == [last];
    } else {
      assert all[1..] == texts[1..] + [last];
      JoinSnoc(texts[1..], sep, last);
    }
  }

  function SectionTexts(sections: seq<Section>): (texts: seq<string>)
    ensures |texts| == |sections|
    ensures forall i :: 0 <= i < |sections| ==> texts[i] == SectionText(sections[i])
  {
    seq(|sections|, i requires 0 <= i < |sections| => SectionText(sections[i]))
  }

  /** Joining one more entry: the first entry alone, or the join so far, a separator and
      the entry. */
  lemma JoinPrefixStep(texts: seq<string>, sep: string, i: nat)
    requires i < |texts|
    ensures Join(texts[..i + 1], sep) == (if i == 0 then texts[0] else Join(texts[..i], sep) + sep + texts[i])
  {
    assert texts[..i + 1] == texts[..i] + [texts[i]];
    if i > 0 {
      JoinSnoc(texts[..i], sep, texts[i]);
    }
  }

  /** The code's accumulation over the sections, on their texts: append each text and,
      after every one but the last, the separator. The result is the texts joined by the
      separator. */
  method JoinByAppending(texts: seq<string>, sep: string) returns (text: string)
    ensures text == Join(texts, sep)
  {
    var n := |texts|;
    text := "";
    var i := 0;
    while i < n
      invariant 0 <= i <= n
      invariant i == 0 ==> text == ""
      invariant 0 < i < n ==> text == Join(texts[..i], sep) + sep
      invariant 0 < i == n ==> text == Join(texts[..i], sep)
    {
      JoinPrefixStep(texts, sep, i);
      text := text + texts[i];
      if i < n - 1 {
        text := text + sep;
      }
      i := i + 1;
    }
    assert texts[..n] == texts;
  }

  /** The raw text of the whole content: every section's text, with the separator after
      each section except the last. */
  method GenerateText(sections: seq<Section>) returns (text: string)
    ensures text == Join(SectionTexts(sections), SectionSeparator)
  {
    text := JoinByAppending(SectionTexts(sections), SectionSeparator);
  }

  /** The final cleanup: runs of three or more line feeds collapse to two, then the whole
      text is trimmed. The result is the collapsed text with a blank prefix and a blank
      suffix cut off; it has no line-feed triple and no blank edge, and nothing but blank
      characters was removed. */
  function CleanText(raw: string): (text: string)
    ensures BlankCut(CollapseNewlines(raw), text)
    ensures NoTripleNewline(text)
    ensures NoEdgeWs(text)
    ensures DropWs(text) == DropWs(raw)
  {
    var collapsed := CollapseNewlines(raw);
    TrimIsBlankCut(collapsed);
    TrimKeepsNoTripleNewline(collapsed);
    TrimKeepsContent(collapsed);
    CollapseNewlinesDropsOnlyNewlines(raw);
    Trim(collapsed)
  }

  /** Cleaning clean text changes nothing. */
  lemma CleanTextIdempotent(raw: string)
    ensures CleanText(CleanText(raw)) == CleanText(raw)
  {
    var text := CleanText(raw);
    CollapseNewlinesKeepsClean(text);
    TrimOfTrimmed(text);
  }

  // ---------------------------------------------------------------- the copy button

  /** What a click on the copy button ends in. Only the last two write to the clipboard. */
  datatype CopyOutcome = ContentNotFound | Copied(text: string) | CopyFailed(text: string)

  /** A click on the copy button. `main` is the `main.main-content` element's content tree,
      `None` when the page lacks it; `clipboardAccepts` is whether the clipboard write
      resolves. Without the content root nothing is serialized and nothing is written;
      otherwise the cleaned text of all sections is written, and the outcome records
      whether the write succeeded. */
  method CopyClick(main: Option<seq<Section>>, clipboardAccepts: bool) returns (outcome: CopyOutcome)
    ensures outcome.ContentNotFound? <==> main.None?
    ensures outcome.Copied? <==> main.Some? && clipboardAccepts
    ensures main.Some? ==> outcome.text == CleanText(Join(SectionTexts(main.value), SectionSeparator))
    ensures !outcome.ContentNotFound? ==> NoTripleNewline(outcome.text) && NoEdgeWs(outcome.text)
  {
    if main.None? {
      return ContentNotFound;
    }
    var raw := GenerateText(main.value);
    var cleaned := CleanText(raw);
    if clipboardAccepts {
      outcome := Copied(cleaned);
    } else {
      outcome := CopyFailed(cleaned);
    }
  }

  /** The tooltip message and the button class a click leaves; the class is `success`
      exactly for a completed copy and `error` otherwise, and each outcome has its own
      message. */
  function Feedback(outcome: CopyOutcome): (r: (string, string))
    ensures r.1 == "success" <==> outcome.Copied?
    ensures r.1 == "error" <==> !outcome.Copied?
    ensures outcome.ContentNotFound? <==> r.0 == "Error: Content not found"
    ensures outcome.Copied? <==> r.0 == "Copied!"
    ensures outcome.CopyFailed? <==> r.0 == "Copy Failed!"
  {
    match outcome
    case ContentNotFound => ("Error: Content not found", "error")
    case Copied(_) => ("Copied!", "success")
    case CopyFailed(_) => ("Copy Failed!", "error")
  }

  // ---------------------------------------------------------------- a worked example

  /** A one-section document: title "Title", paragraph "Hello", and a top-level styled
      list holding "A". */
  function ExampleSection(): (sec: Section) {
    var paragraph := Element(Paragraph, "Hello", false);
    var item := Element(Item(ListItem({"styled-list"}, 1, 0, None, false)), "A", false);
    Section(Some("Title"), None, None, [paragraph, item], None)
  }

  lemma ExampleElementTexts()
    ensures ElementText(ExampleSection().elements[0]) == "Hello\n\n"
    ensures ElementText(ExampleSection().elements[1]) == "  * A\n"
  {
    TrimOfTrimmed("Hello");
    TrimOfTrimmed("A");
    assert !AllWs("Hello") by { assert !IsWs("Hello"[0]); }
    assert !AllWs("A") by { assert !IsWs("A"[0]); }
    assert Indent(1) == "  ";
  }

  lemma ExampleHeadingText()
    ensures HeadingText(ExampleSection()) == "Title\n=====\n\n"
  {
    TrimOfTrimmed("Title");
    assert Repeat('=', 5) == "=====";
  }

  lemma ExampleElementsText()
    ensures ElementsText(ExampleSection().elements) == "Hello\n\n  * A\n"
  {
    var elements := ExampleSection().elements;
    ExampleElementTexts();
    assert elements[1..] == [elements[1]];
    assert ElementsText([elements[1]]) == "  * A\n";
  }

  lemma ExampleSectionText()
    ensures SectionText(ExampleSection()) == "Title\n=====\n\n" + "Hello\n\n  * A\n"
  {
    var sec := ExampleSection();
    ExampleHeadingText();
    ExampleElementsText();
    assert MetaText(sec.meta) == [] && TableText(sec.table) == [];
    assert MetaText(sec.meta) + ElementsText(sec.elements) + TableText(sec.table) == ElementsText(sec.elements);
  }

  lemma ExampleTrim()
    ensures Trim("Title\n=====\n\nHello\n\n  * A\n") == "Title\n=====\n\nHello\n\n  * A"
  {
    var raw := "Title\n=====\n\nHello\n\n  * A\n";
    var out := "Title\n=====\n\nHello\n\n  * A";
    assert LeadingWs(raw) == 0;
    assert raw[..|raw| - 1] == out;
    assert TrailingWs(out) == 0;
    assert TrailingWs(raw) == 1;
  }

  /** The example's raw text, built from pieces that each end in a character other than a
      line feed, has no run of three line feeds. */
  lemma ExampleHasNoTripleNewline()
    ensures NoTripleNewline("Title\n=====\n\nHello\n\n  * A\n")
  {
    var a, b, c, d := "Title", "\n=====", "\n\nHello", "\n\n  * A";
    assert NoTripleNewline(a) && NoTripleNewline(b) && NoTripleNewline(c) && NoTripleNewline(d);
    assert NoTripleNewline("\n");
    NoTripleNewlineJoin(a, b);
    NoTripleNewlineJoin(a + b, c);
    NoTripleNewlineJoin(a + b + c, d);
    NoTripleNewlineJoin(a + b + c + d, "\n");
    assert a + b + c + d + "\n" == "Title\n=====\n\nHello\n\n  * A\n";
  }

  /** Joined, the example's one section is its own text. */
  lemma ExampleJoinedText()
    ensures Join(SectionTexts([ExampleSection()]), SectionSeparator) == "Title\n=====\n\nHello\n\n  * A\n"
  {
    var texts := SectionTexts([ExampleSection()]);
    assert Join(texts, SectionSeparator) == texts[0];
    ExampleSectionText();
    ExampleRawText();
  }

  /** The example's heading block and element text, put together. */
  lemma ExampleRawText()
    ensures "Title\n=====\n\n" + "Hello\n\n  * A\n" == "Title\n=====\n\nHello\n\n  * A\n"
  {
  }

  /** The copied text of the example document: the title over a rule of five `=`, a blank
      line, the paragraph, a blank line, and the list item indented by two spaces. */
  lemma ExampleDocumentText()
    ensures CleanText(Join(SectionTexts([ExampleSection()]), SectionSeparator))
         == "Title\n=====\n\nHello\n\n  * A"
  {
    var raw := "Title\n=====\n\nHello\n\n  * A\n";
    ExampleJoinedText();
    ExampleHasNoTripleNewline();
    CollapseNewlinesKeepsClean(raw);
    ExampleTrim();
  }
}

=== FILE: header_effect.dfy ===
/**
  The header's show/hide effect (handleScroll): on a desktop-width page with the mobile
  menu closed, scrolling down past a threshold hides the header (class `scroll-down`) and
  scrolling back up reveals it (class `scroll-up`); near the top, on narrow pages and while
  the mobile menu is open the header carries neither class.
*/
module HeaderEffect {
  import opened Wrappers
  import Layout

  /** Within this many pixels of the top the header is always shown. */
  const ScrollThreshold: real := 50.0

  /** The header's two effect classes and the handler's `lastScroll` variable. */
  datatype HeaderState = HeaderState(scrollUp: bool, scrollDown: bool, lastScroll: real)

  /** What one run of the handler reads: the page offset, the viewport width, and
      whether the body carries `mobile-menu-open`. */
  datatype Tick = Tick(currentScroll: real, innerWidth: int, menuOpen: bool)

  /** The markup's header has neither class, and `lastScroll` starts at 0. */
  function Initial(): (s: HeaderState) {
    HeaderState(false, false, 0.0)
  }

  /** The state the handler can be in: never both classes, and a non-negative `lastScroll`. */
  predicate Valid(s: HeaderState) {
    !(s.scrollUp && s.scrollDown) && s.lastScroll >= 0.0
  }

  /** The effect applies only on a desktop-width page with the mobile menu closed. */
  predicate Engaged(breakpoint: Option<int>, t: Tick) {
    !t.menuOpen && Layout.IsDesktop(t.innerWidth, breakpoint)
  }

  /** One run of handleScroll; `breakpoint` is `--mobile-breakpoint`, read once at set-up.

      Suspended (menu open, or not a desktop width): both classes go and `lastScroll`
      follows the page. Engaged and within the threshold of the top: both classes go and
      the early return leaves `lastScroll` where it was. Otherwise the header is hidden
      only on a move down and revealed only on a move up from hidden; on any other move the
      classes stay as they were. `lastScroll` follows the page. A valid state stays valid. */
  function Step(breakpoint: Option<int>, s: HeaderState, t: Tick): (r: HeaderState)
    ensures Valid(s) ==> Valid(r)
    ensures !Engaged(breakpoint, t) ==>
              !r.scrollUp && !r.scrollDown && r.lastScroll == Layout.Max0(t.currentScroll)
    ensures Engaged(breakpoint, t) && t.currentScroll <= ScrollThreshold ==>
              !r.scrollUp && !r.scrollDown && r.lastScroll == s.lastScroll
    ensures !(Engaged(breakpoint, t) && t.currentScroll <= ScrollThreshold) ==>
              r.lastScroll == Layout.Max0(t.currentScroll) && r.lastScroll >= 0.0
    ensures !s.scrollUp && r.scrollUp ==>
              s.scrollDown && t.currentScroll < s.lastScroll && t.currentScroll > ScrollThreshold
    ensures !s.scrollDown && r.scrollDown ==>
              t.currentScroll > s.lastScroll && t.currentScroll > ScrollThreshold
    ensures r.scrollUp ==> s.scrollUp || s.scrollDown
    ensures Engaged(breakpoint, t) && t.currentScroll > ScrollThreshold
            && !(t.currentScroll > s.lastScroll && !s.scrollDown)
            && !(t.currentScroll < s.lastScroll && s.scrollDown) ==>
              r.scrollUp == s.scrollUp && r.scrollDown == s.scrollDown
  {
    var currentScroll := t.currentScroll;
    if Engaged(breakpoint, t) then
      if currentScroll <= ScrollThreshold then
        HeaderState(false, false, s.lastScroll)
      else if currentScroll > s.lastScroll && !s.scrollDown then
        HeaderState(false, true, Layout.Max0(currentScroll))
      else if currentScroll < s.lastScroll && s.scrollDown then
        HeaderState(true, false, Layout.Max0(currentScroll))
      else
        HeaderState(s.scrollUp, s.scrollDown, Layout.Max0(currentScroll))
    else
      HeaderState(false, false, Layout.Max0(currentScroll))
  }

  /** A move down past the threshold hides the header, whatever it showed before. */
  lemma ScrollDownHides(breakpoint: Option<int>, s: HeaderState, t: Tick)
    requires Valid(s) && Engaged(breakpoint, t)
    requires t.currentScroll > ScrollThreshold && t.currentScroll > s.lastScroll
    ensures Step(breakpoint, s, t).scrollDown && !Step(breakpoint, s, t).scrollUp
  {
  }

  /** A move up past the threshold from a hidden header reveals it. */
  lemma ScrollUpReveals(breakpoint: Option<int>, s: HeaderState, t: Tick)
    requires s.scrollDown && Engaged(breakpoint, t)
    requires ScrollThreshold < t.currentScroll < s.lastScroll
    ensures Step(breakpoint, s, t).scrollUp && !Step(breakpoint, s, t).scrollDown
  {
  }

  /** The handler's runs in order, starting from state `s`. */
  function Run(breakpoint: Option<int>, s: HeaderState, ticks: seq<Tick>): (last: HeaderState)
    decreases |ticks|
  {
    if ticks == [] then s else Run(breakpoint, Step(breakpoint, s, ticks[0]), ticks[1..])
  }

  /** Validity holds across any sequence of scroll and resize events. */
  lemma {:induction false} RunKeepsValid(breakpoint: Option<int>, s: HeaderState, ticks: seq<Tick>)
    requires Valid(s)
    ensures Valid(Run(breakpoint, s, ticks))
    decreases |ticks|
  {
    if ticks != [] {
      RunKeepsValid(breakpoint, Step(breakpoint, s, ticks[0]), ticks[1..]);
    }
  }

  /** From page load on (the set-up's initial call is the first tick), the header never
      carries both classes and `lastScroll` is never negative. */
  lemma ReachableStatesValid(breakpoint: Option<int>, ticks: seq<Tick>)
    ensures Valid(Run(breakpoint, Initial(), ticks))
  {
    RunKeepsValid(breakpoint, Initial(), ticks);
  }

  /** The early return near the top leaves `lastScroll` behind: after hiding the header at
      some depth, a visit near the top and a move back down to above the threshold but
      short of that depth reads as a move up, so the header stays shown for that tick. */
  lemma StaleLastScrollAfterTop(breakpoint: Option<int>, s: HeaderState, nearTop: Tick, back: Tick)
    requires Valid(s) && Engaged(breakpoint, nearTop) && Engaged(breakpoint, back)
    requires nearTop.currentScroll <= ScrollThreshold
    requires ScrollThreshold < back.currentScroll < s.lastScroll
    ensures var r := Run(breakpoint, s, [nearTop, back]); !r.scrollDown && !r.scrollUp
  {
    var s1 := Step(breakpoint, s, nearTop);
    assert s1 == HeaderState(false, false, s.lastScroll);
    assert [nearTop, back][1..] == [back];
    assert Run(breakpoint, s1, [back]) == Step(breakpoint, s1, back);
  }
}

=== FILE: layout.dfy ===
/**
  Header height and scroll-target arithmetic shared by every in-page link: the height of
  the fixed header that a scroll must clear (getHeaderOffset) and the clamped position a
  smooth scroll is asked to reach.

  The CSS custom properties `--mobile-breakpoint`, `--header-height-mobile` and
  `--header-height` arrive already parsed: `None` stands for a value `parseInt` reads as NaN.
*/
module Layout {
  import opened Wrappers

  /** Header height used on mobile when `--header-height-mobile` is NaN or 0. */
  const MobileHeaderFallback: int := 60
  /** Header height used on desktop without a `.header` element when `--header-height` is NaN or 0. */
  const DesktopHeaderFallback: int := 70
  /** Gap left between the header and the element a link scrolls to. */
  const ScrollBuffer: int := 20

  datatype CssConfig = CssConfig(
    breakpoint: Option<int>,     // --mobile-breakpoint
    mobileHeight: Option<int>,   // --header-height-mobile
    desktopHeight: Option<int>)  // --header-height

  /** `parseInt(v) || fallback`: NaN and 0 are falsy and give way to the fallback. */
  function ParsedOr(parsed: Option<int>, fallback: int): (v: int) {
    if parsed.Some? && parsed.value != 0 then parsed.value else fallback
  }

  /** `innerWidth <= breakpoint`; any comparison with NaN is false. */
  predicate IsMobile(innerWidth: int, breakpoint: Option<int>) {
    breakpoint.Some? && innerWidth <= breakpoint.value
  }

  /** `innerWidth > breakpoint`; also false against NaN, so a page whose breakpoint does
      not parse is neither mobile nor desktop. */
  predicate IsDesktop(innerWidth: int, breakpoint: Option<int>) {
    breakpoint.Some? && innerWidth > breakpoint.value
  }

  /** getHeaderOffset. `measured` is the `.header` element's offsetHeight, `None` when the
      page has no such element. On mobile the configured mobile height wins whether or not
      the header exists; otherwise a present header is measured and an absent one falls
      back to the configured desktop height. The result is zero only for a desktop page
      whose header measures zero pixels: both fallbacks replace a zero setting. */
  function HeaderOffset(css: CssConfig, innerWidth: int, measured: Option<nat>): (h: int)
    ensures IsMobile(innerWidth, css.breakpoint) ==> h == ParsedOr(css.mobileHeight, MobileHeaderFallback)
    ensures !IsMobile(innerWidth, css.breakpoint) && measured.Some? ==> h == measured.value
    ensures !IsMobile(innerWidth, css.breakpoint) && measured.None? ==>
              h == ParsedOr(css.desktopHeight, DesktopHeaderFallback)
    ensures IsMobile(innerWidth, css.breakpoint) && (css.mobileHeight.None? || css.mobileHeight == Some(0)) ==>
              h == MobileHeaderFallback
    ensures h == 0 <==> !IsMobile(innerWidth, css.breakpoint) && measured == Some(0)
  {
    var isMobile := IsMobile(innerWidth, css.breakpoint);
    var mobileHeight := ParsedOr(css.mobileHeight, MobileHeaderFallback);
    var desktopHeight := ParsedOr(css.desktopHeight, DesktopHeaderFallback);
    match measured
    case Some(height) => if isMobile then mobileHeight else height
    case None => if isMobile then mobileHeight else desktopHeight
  }

  /** `Math.max(0, x)`. */
  function Max0(x: real): (m: real) {
    if x > 0.0 then x else 0.0
  }

  /** `Math.max(0, elementTop - headerOffset - 20)`: the scroll position that puts the
      element 20 pixels below the header. The request is never negative; whenever it is
      above zero the element lands exactly `headerOffset + 20` below the top of the
      viewport, and when it is zero the element was already within that distance of the
      top of the page. */
  function ScrollTarget(elementTop: real, headerOffset: int): (t: real)
    ensures t >= 0.0
    ensures elementTop - headerOffset as real - ScrollBuffer as real >= 0.0 ==>
              t == elementTop - headerOffset as real - ScrollBuffer as real
    ensures t > 0.0 ==> elementTop - t == headerOffset as real + ScrollBuffer as real
    ensures t == 0.0 ==> elementTop <= headerOffset as real + ScrollBuffer as real
  {
    Max0(elementTop - headerOffset as real - ScrollBuffer as real)
  }
}

=== FILE: menu.dfy ===
/**
  The hamburger menu's state: the button's `aria-expanded` attribute and `active` class,
  the menu's `open` class and `aria-hidden` attribute, and the body's `mobile-menu-open`
  class (which the header effect reads).
*/
module Menu {
  import opened Wrappers

  datatype MenuState = MenuState(
    ariaExpanded: Option<string>,  // hamburger button attribute; None when absent
    buttonActive: bool,            // hamburger button class `active`
    menuOpen: bool,                // mobile menu class `open`
    bodyMenuOpen: bool,            // body class `mobile-menu-open`
    ariaHidden: Option<string>)    // mobile menu attribute; None when absent

  /** `String(b)` for a boolean. */
  function AttrOf(b: bool): (attr: string) {
    if b then "true" else "false"
  }

  /** `getAttribute('aria-expanded') === 'true'`. */
  predicate IsExpanded(m: MenuState) {
    m.ariaExpanded == Some("true")
  }

  /** The two attributes hold the canonical strings and agree with each other. */
  predicate AttributesInSync(m: MenuState) {
    && m.ariaExpanded == Some(AttrOf(IsExpanded(m)))
    && m.ariaHidden == Some(AttrOf(!IsExpanded(m)))
  }

  /** All five flags tell the same story: open everywhere or closed everywhere. */
  predicate InSync(m: MenuState) {
    && AttributesInSync(m)
    && m.buttonActive == IsExpanded(m)
    && m.menuOpen == IsExpanded(m)
    && m.bodyMenuOpen == IsExpanded(m)
  }

  /** Fully closed: what a link click leaves behind. */
  predicate IsClosed(m: MenuState) {
    InSync(m) && !IsExpanded(m)
  }

  /** Click on the hamburger button. `aria-expanded` flips, the three classes flip, and
      `aria-hidden` takes the old `aria-expanded` value; so whatever the state before,
      afterwards `aria-hidden` is the negation of `aria-expanded`, and a synchronized
      menu stays synchronized. */
  function Toggle(m: MenuState): (r: MenuState)
    ensures IsExpanded(r) <==> !IsExpanded(m)
    ensures r.ariaHidden == Some(AttrOf(IsExpanded(m)))
    ensures AttributesInSync(r)
    ensures r.buttonActive != m.buttonActive && r.menuOpen != m.menuOpen && r.bodyMenuOpen != m.bodyMenuOpen
    ensures InSync(m) ==> InSync(r)
  {
    var wasExpanded := IsExpanded(m);
    MenuState(Some(AttrOf(!wasExpanded)), !m.buttonActive, !m.menuOpen, !m.bodyMenuOpen, Some(AttrOf(wasExpanded)))
  }

  /** Two clicks on the button restore every flag exactly when the attributes started out
      as the canonical "true"/"false" pair; the classes are restored unconditionally. */
  lemma ToggleTwice(m: MenuState)
    ensures Toggle(Toggle(m)) == m <==> AttributesInSync(m)
  {
    if Toggle(Toggle(m)) == m {
      assert AttributesInSync(Toggle(Toggle(m)));
    }
  }

  /** Without the canonical attributes the round trip is not exact: a button with no
      `aria-expanded` attribute comes back from two clicks with "false". */
  lemma ToggleTwiceNormalizesAbsentAttribute(m: MenuState)
    requires m.ariaExpanded.None?
    ensures Toggle(Toggle(m)).ariaExpanded == Some("false")
    ensures Toggle(Toggle(m)) != m
  {
  }

  /** The menu part of a mobile-menu link click. The result is fully closed, whatever the
      state before, so closing twice is closing once. */
  function Close(m: MenuState): (r: MenuState)
    ensures IsClosed(r)
    ensures r.ariaExpanded == Some("false") && r.ariaHidden == Some("true")
    ensures !r.buttonActive && !r.menuOpen && !r.bodyMenuOpen
  {
    MenuState(Some("false"), false, false, false, Some("true"))
  }

  /** Closing is idempotent, and a closed menu is a fixed point of closing. */
  lemma CloseIdempotent(m: MenuState)
    ensures Close(Close(m)) == Close(m)
    ensures IsClosed(m) ==> Close(m) == m
  {
  }
}

=== FILE: progress.dfy ===
/**
  The reading-progress bar and the active navigation link (updateProgressAndNav). Every
  run reads the page's geometry afresh; nothing is kept between runs.
*/
module Progress {
  import opened Wrappers
  import Layout

  /** Distance below the header at which a section counts as being read. */
  const DetectionBuffer: real := 50.0
  /** Scroll depth under which the first section is highlighted before it is reached. */
  const NearTop: real := 100.0
  /** Distance from the bottom of the document at which the last section is highlighted. */
  const NearBottom: real := 100.0

  /** Scrollable distance the bar measures against:
      `documentHeight - windowHeight - headerOffset`. */
  function TotalScrollable(documentHeight: int, windowHeight: int, headerOffset: int): (total: int) {
    documentHeight - windowHeight - headerOffset
  }

  /** `Math.min(Math.max(0, progress), 100)` where progress is `scrolled / total * 100`, or
      0 when nothing is scrollable. The bar's width is always a percentage in [0, 100]; it
      is 0 at or above the top and 100 at or beyond the scrollable end, and in between it
      is the scrolled share of the total. */
  function ProgressPercent(scrolled: real, documentHeight: int, windowHeight: int, headerOffset: int)
    : (p: real)
    ensures 0.0 <= p <= 100.0
    ensures TotalScrollable(documentHeight, windowHeight, headerOffset) <= 0 ==> p == 0.0
    ensures var total := TotalScrollable(documentHeight, windowHeight, headerOffset) as real;
            total > 0.0 && 0.0 <= scrolled <= total ==> p * total == scrolled * 100.0
    ensures scrolled <= 0.0 ==> p == 0.0
    ensures var total := TotalScrollable(documentHeight, windowHeight, headerOffset);
            total > 0 && scrolled >= total as real ==> p == 100.0
  {
    var total := TotalScrollable(documentHeight, windowHeight, headerOffset);
    var progress := if total > 0 then scrolled / total as real * 100.0 else 0.0;
    var atLeastZero := Layout.Max0(progress);
    if atLeastZero < 100.0 then atLeastZero else 100.0
  }

  /** Scrolling further never moves the bar back. */
  lemma ProgressMonotonic(s1: real, s2: real, documentHeight: int, windowHeight: int, headerOffset: int)
    requires s1 <= s2
    ensures ProgressPercent(s1, documentHeight, windowHeight, headerOffset)
         <= ProgressPercent(s2, documentHeight, windowHeight, headerOffset)
  {
    var total := TotalScrollable(documentHeight, windowHeight, headerOffset) as real;
    if total > 0.0 {
      assert s1 / total <= s2 / total by {
        assert s2 / total - s1 / total == (s2 - s1) / total;
      }
    }
  }

  // ---------------------------------------------------------------- active section

  /** A `main > section[id]` element: its id attribute, offsetTop and offsetHeight. */
  datatype SectionBox = SectionBox(id: string, top: int, height: int)

  /** The section's box `[top, top + height)` contains the point. */
  predicate Covers(b: SectionBox, point: real) {
    b.top as real <= point < (b.top + b.height) as real
  }

  /** No section after index `k` contains the point. */
  predicate LastCoveringAt(boxes: seq<SectionBox>, point: real, k: int)
    requires 0 <= k < |boxes|
  {
    Covers(boxes[k], point) && forall j :: k < j < |boxes| ==> !Covers(boxes[j], point)
  }

  /** The `forEach` over the sections that overwrites `current` at every section containing
      the point: the result is the id of the last section in document order that contains
      it, and `current` unchanged when none does. */
  function LastCoveringId(boxes: seq<SectionBox>, point: real, current: string): (id: string)
    ensures (forall k :: 0 <= k < |boxes| ==> !Covers(boxes[k], point)) ==> id == current
    ensures forall k :: 0 <= k < |boxes| && LastCoveringAt(boxes, point, k) ==> id == boxes[k].id
    decreases |boxes|
  {
    if boxes == [] then current
    else
      var id := LastCoveringId(boxes[1..], point, if Covers(boxes[0], point) then boxes[0].id else current);
      assert forall k :: 1 <= k < |boxes| ==> boxes[k] == boxes[1..][k - 1];
      assert forall k :: 1 <= k < |boxes| && LastCoveringAt(boxes, point, k) ==>
        LastCoveringAt(boxes[1..], point, k - 1);
      id
  }

  /** The section an id names, if any. */
  predicate IsSectionId(boxes: seq<SectionBox>, id: string) {
    exists k :: 0 <= k < |boxes| && boxes[k].id == id
  }

  /** The id of the section to highlight. The detection point sits `headerOffset + 50`
      below the scroll position; the last section whose box contains it wins. When that
      gives no id (no section contains the point, or the last one that does has an empty
      id), the first section is chosen while the page is above the first section and
      scrolled less than 100 pixels, and the last section once the viewport is within 100
      pixels of the document's end; in every other such case it is empty. The result is
      empty or the id of some section. The set-up installs no handler for a page without
      sections, so there is always a first one. */
  function ActiveSectionId(boxes: seq<SectionBox>, scrolled: real, headerOffset: int,
                           windowHeight: int, documentHeight: int): (id: string)
    requires |boxes| > 0
    ensures id == "" || IsSectionId(boxes, id)
    ensures var point := scrolled + headerOffset as real + DetectionBuffer;
            forall k :: 0 <= k < |boxes| && LastCoveringAt(boxes, point, k) && boxes[k].id != "" ==>
              id == boxes[k].id
    ensures var point := scrolled + headerOffset as real + DetectionBuffer;
            var above := scrolled < (boxes[0].top - headerOffset) as real - DetectionBuffer;
            var nearEnd := scrolled + windowHeight as real >= documentHeight as real - NearBottom;
            (forall k :: 0 <= k < |boxes| && LastCoveringAt(boxes, point, k) ==> boxes[k].id == "") ==>
              && (above && scrolled < NearTop ==> id == boxes[0].id)
              && (above && scrolled >= NearTop ==> id == "")
              && (!above && nearEnd ==> id == boxes[|boxes| - 1].id)
              && (!above && !nearEnd ==> id == "")
  {
    var detectionPoint := scrolled + headerOffset as real + DetectionBuffer;
    var scanned := LastCoveringId(boxes, detectionPoint, "");
    assert scanned == "" || IsSectionId(boxes, scanned) by {
      if scanned != "" {
        var k :| 0 <= k < |boxes| && Covers(boxes[k], detectionPoint);
        LastCoveringExists(boxes, detectionPoint, k);
      }
    }
    assert (forall k :: 0 <= k < |boxes| && LastCoveringAt(boxes, detectionPoint, k) ==> boxes[k].id == "")
           ==> scanned == "" by {
      if exists k :: 0 <= k < |boxes| && Covers(boxes[k], detectionPoint) {
        var k :| 0 <= k < |boxes| && Covers(boxes[k], detectionPoint);
        LastCoveringExists(boxes, detectionPoint, k);
      }
    }
    if scanned != "" then scanned
    else if scrolled < (boxes[0].top - headerOffset) as real - DetectionBuffer then
      (if scrolled < NearTop then boxes[0].id else "")
    else if scrolled + windowHeight as real >= documentHeight as real - NearBottom then
      boxes[|boxes| - 1].id
    else ""
  }

  /** A covering section with an empty id does not win: the fallback decides. Here the
      point at 50 is inside only the second section, whose id is empty, the page is below
      the first section's top and far from the end, so nothing is highlighted. */
  lemma EmptyIdCoveringFallsBack()
    ensures ActiveSectionId([SectionBox("a", 0, 10), SectionBox("", 0, 1000)], 0.0, 0, 0, 1000) == ""
  {
  }

  /** When some section contains the point, one of them is the last to do so. */
  lemma {:induction false} LastCoveringExists(boxes: seq<SectionBox>, point: real, k: int)
    requires 0 <= k < |boxes| && Covers(boxes[k], point)
    ensures exists m :: k <= m < |boxes| && LastCoveringAt(boxes, point, m)
    decreases |boxes| - k
  {
    if !LastCoveringAt(boxes, point, k) {
      var j :| k < j < |boxes| && Covers(boxes[j], point);
      LastCoveringExists(boxes, point, j);
    }
  }

  // ---------------------------------------------------------------- navigation links

  /** `link.classList.toggle('active', href === '#' + id)` over the desktop navigation
      links, `None` standing for a link without an href: each link is active exactly when
      its href names the chosen section. */
  function ActiveLinks(hrefs: seq<Option<string>>, id: string): (active: seq<bool>)
    ensures |active| == |hrefs|
    ensures forall i :: 0 <= i < |hrefs| ==> (active[i] <==> hrefs[i] == Some("#" + id))
  {
    seq(|hrefs|, i requires 0 <= i < |hrefs| => hrefs[i] == Some("#" + id))
  }

  /** With distinct hrefs, at most one link is active at a time. */
  lemma AtMostOneActiveLink(hrefs: seq<Option<string>>, id: string)
    requires forall i, j :: 0 <= i < j < |hrefs| ==> hrefs[i] != hrefs[j]
    ensures var active := ActiveLinks(hrefs, id);
            forall i, j :: 0 <= i < |hrefs| && 0 <= j < |hrefs| && active[i] && active[j] ==> i == j
  {
  }

  /** When no section is chosen the id is empty, and a link whose href is the bare "#"
      is then the one marked active. */
  lemma BareHashActiveWithoutSection(hrefs: seq<Option<string>>, i: nat)
    requires i < |hrefs| && hrefs[i] == Some("#")
    ensures ActiveLinks(hrefs, "")[i]
  {
    assert "#" + "" == "#";
  }
}

=== FILE: reveal.dfy ===
/**
  The staggered reveal of `.animate-item` elements: when their container scrolls into
  view, the i-th item gets `--animation-delay: ${i * 70}ms`.
*/
module Reveal {
  import Text

  /** Milliseconds between the entrances of consecutive items. */
  const StaggerStepMs: nat := 70

  /** The delays of a container's items in document order: the first item starts at
      once and each later one 70 ms after its predecessor. */
  function StaggerDelays(count: nat): (delays: seq<nat>)
    ensures |delays| == count
    ensures count > 0 ==> delays[0] == 0
    ensures forall i :: 0 < i < count ==> delays[i] == delays[i - 1] + StaggerStepMs
  {
    seq(count, i => i * StaggerStepMs)
  }

  /** The custom-property value written for item `index`: its delay in decimal, then "ms". */
  function DelayValue(index: nat): (value: string) {
    Text.NatToString(index * StaggerStepMs) + "ms"
  }

  /** The property value reads back as the item's delay: decimal digits of
      `index * 70`, followed by the unit, which is the item's entry in `StaggerDelays`. */
  lemma DelayValueReadsBack(index: nat)
    ensures var v := DelayValue(index);
            |v| > 2 && v[|v| - 2..] == "ms" && Text.AllDigits(v[..|v| - 2])
            && Text.ParseNat(v[..|v| - 2]) == index * StaggerStepMs
            && Text.ParseNat(v[..|v| - 2]) == StaggerDelays(index + 1)[index]
  {
    var digits := Text.NatToString(index * StaggerStepMs);
    assert DelayValue(index)[..|DelayValue(index)| - 2] == digits;
    Text.ParseNatToString(index * StaggerStepMs);
  }
}

=== FILE: text.dfy ===
/**
  String operations the copy feature relies on, over `string` (a sequence of chars):
  JavaScript's `trim`, `String.prototype.repeat`, the first-occurrence `replace`,
  decimal formatting of an index, the `/:\s+/g` spacing fix of the meta lines and the
  `/\n{3,}/g` newline collapse of the final text.
*/
module Text {
  import opened Wrappers

  /** The characters `trim` and the regex class `\s` treat as blank (an explicit subset
      of JavaScript's WhiteSpace and LineTerminator productions). */
  predicate IsWs(c: char) {
    c == ' ' || c == '\t' || c == '\n' || c == '\r' || c == '\U{000B}' || c == '\U{000C}'
    || c == '\U{00A0}' || c == '\U{FEFF}' || c == '\U{2028}' || c == '\U{2029}'
  }

  predicate AllWs(s: string) {
    forall k :: 0 <= k < |s| ==> IsWs(s[k])
  }

  /** Neither the first nor the last character is blank. */
  predicate NoEdgeWs(s: string) {
    |s| > 0 ==> !IsWs(s[0]) && !IsWs(s[|s| - 1])
  }

  /** The string with every blank character removed. */
  function DropWs(s: string): (r: string) {
    if s == [] then [] else (if IsWs(s[0]) then [] else [s[0]]) + DropWs(s[1..])
  }

  lemma {:induction false} DropWsAppend(a: string, b: string)
    ensures DropWs(a + b) == DropWs(a) + DropWs(b)
  {
    if a == [] {
      assert a + b == b;
    } else {
      assert (a + b)[1..] == a[1..] + b;
      DropWsAppend(a[1..], b);
    }
  }

  lemma {:induction false} DropWsOfBlank(s: string)
    requires AllWs(s)
    ensures DropWs(s) == []
  {
    if s != [] {
      DropWsOfBlank(s[1..]);
    }
  }

  // ---------------------------------------------------------------- trim

  /** Number of blank characters at the front of `s`. */
  function LeadingWs(s: string): (n: nat)
    ensures n <= |s|
    ensures AllWs(s[..n])
    ensures n < |s| ==> !IsWs(s[n])
  {
    if s == [] || !IsWs(s[0]) then 0
    else
      var n := 1 + LeadingWs(s[1..]);
      assert forall k :: 1 <= k < n ==> s[k] == s[1..][..n - 1][k - 1];
      n
  }

  /** Number of blank characters at the end of `s`. */
  function TrailingWs(s: string): (n: nat)
    ensures n <= |s|
    ensures AllWs(s[|s| - n..])
    ensures n < |s| ==> !IsWs(s[|s| - 1 - n])
  {
    if s == [] || !IsWs(s[|s| - 1]) then 0
    else
      var init := s[..|s| - 1];
      var n := 1 + TrailingWs(init);
      assert forall k :: |s| - n <= k < |s| - 1 ==> s[k] == init[|init| - (n - 1)..][k - (|s| - n)];
      n
  }

  /** JavaScript's `trim`: the slice of `s` left after removing the blank prefix and the
      blank suffix. The result is that slice and nothing else: it starts where the blank
      prefix ends, what follows it in `s` is blank, and its own edges are not blank. */
  function Trim(s: string): (r: string)
    ensures NoEdgeWs(r)
    ensures r == [] <==> AllWs(s)
    ensures LeadingWs(s) + |r| <= |s|
    ensures r == s[LeadingWs(s)..LeadingWs(s) + |r|]
    ensures AllWs(s[..LeadingWs(s)]) && AllWs(s[LeadingWs(s) + |r|..])
  {
    var a := LeadingWs(s);
    if a == |s| then []
    else
      var b := TrailingWs(s);
      s[a..|s| - b]
  }

  /** A string without blank edges is its own trim. */
  lemma TrimOfTrimmed(s: string)
    requires NoEdgeWs(s)
    ensures Trim(s) == s
  {
    if s != [] {
      assert LeadingWs(s) == 0;
    }
  }

  /** `t` is what is left of `s` once some blank prefix and some blank suffix are cut off. */
  predicate BlankCut(s: string, t: string) {
    exists i, j :: 0 <= i <= j <= |s| && AllWs(s[..i]) && AllWs(s[j..]) && t == s[i..j]
  }

  /** The trim is what is left between a blank prefix and a blank suffix. */
  lemma TrimIsBlankCut(s: string)
    ensures BlankCut(s, Trim(s))
  {
    var i := LeadingWs(s);
    var j := i + |Trim(s)|;
    assert AllWs(s[..i]) && AllWs(s[j..]) && Trim(s) == s[i..j];
  }

  /** Trimming twice is trimming once. */
  lemma TrimIdempotent(s: string)
    ensures Trim(Trim(s)) == Trim(s)
  {
    TrimOfTrimmed(Trim(s));
  }

  /** Trimming removes blank characters only. */
  lemma TrimKeepsContent(s: string)
    ensures DropWs(Trim(s)) == DropWs(s)
  {
    var r := Trim(s);
    var a := LeadingWs(s);
    assert s == s[..a] + r + s[a + |r|..];
    DropWsAppend(s[..a] + r, s[a + |r|..]);
    DropWsAppend(s[..a], r);
    DropWsOfBlank(s[..a]);
    DropWsOfBlank(s[a + |r|..]);
  }

  // ---------------------------------------------------------------- repeat

  /** Concatenation is associative; stated once so that the proofs below need not rebuild
      it element by element. */
  lemma ConcatAssoc(x: string, y: string, z: string)
    ensures (x + y) + z == x + (y + z)
  {
  }

  /** `c.repeat(n)` for a one-character string `c`. */
  function Repeat(c: char, n: nat): (r: string)
    ensures |r| == n
    ensures forall k :: 0 <= k < n ==> r[k] == c
  {
    if n == 0 then [] else [c] + Repeat(c, n - 1)
  }

  // ---------------------------------------------------------------- replace

  predicate MatchesAt(s: string, pat: string, k: nat) {
    k + |pat| <= |s| && s[k..k + |pat|] == pat
  }

  /** First position at or after `from` where `pat` occurs in `s`. */
  function IndexFrom(s: string, pat: string, from: nat): (r: Option<nat>)
    requires from <= |s|
    ensures r.Some? ==> from <= r.value && MatchesAt(s, pat, r.value)
    ensures r.Some? ==> forall k :: from <= k < r.value ==> !MatchesAt(s, pat, k)
    ensures r.None? ==> forall k :: from <= k <= |s| ==> !MatchesAt(s, pat, k)
    decreases |s| - from
  {
    if MatchesAt(s, pat, from) then Some(from)
    else if from == |s| then None
    else IndexFrom(s, pat, from + 1)
  }

  /** JavaScript's `indexOf` for a string pattern. */
  function IndexOf(s: string, pat: string): (i: Option<nat>) {
    IndexFrom(s, pat, 0)
  }

  /** JavaScript's `replace` with a string pattern: only the first occurrence changes. */
  function ReplaceFirst(s: string, pat: string, rep: string): (r: string) {
    match IndexOf(s, pat)
    case None => s
    case Some(i) => s[..i] + rep + s[i + |pat|..]
  }

  /** Replacing a pattern by itself changes nothing. */
  lemma ReplaceWithItself(s: string, pat: string)
    ensures ReplaceFirst(s, pat, pat) == s
  {
    match IndexOf(s, pat)
    case None =>
    case Some(i) =>
      assert s == s[..i] + s[i..i + |pat|] + s[i + |pat|..];
  }

  // ---------------------------------------------------------------- decimal

  predicate IsDigit(c: char) {
    '0' <= c <= '9'
  }

  predicate AllDigits(s: string) {
    forall k :: 0 <= k < |s| ==> IsDigit(s[k])
  }

  function DigitChar(d: nat): (c: char)
    requires d < 10
    ensures IsDigit(c)
  {
    ('0' as int + d) as char
  }

  function DigitValue(c: char): (d: nat)
    requires IsDigit(c)
    ensures d < 10
  {
    c as int - '0' as int
  }

  /** Decimal rendering of a natural number, as a template literal `${n}` gives it:
      digits only, never empty, no leading zero. */
  function NatToString(n: nat): (r: string)
    ensures |r| > 0 && AllDigits(r)
    ensures r[0] == '0' ==> n == 0
    decreases n
  {
    if n < 10 then [DigitChar(n)] else NatToString(n / 10) + [DigitChar(n % 10)]
  }

  /** Value of a string of decimal digits. */
  function ParseNat(s: string): (n: nat)
    requires AllDigits(s)
  {
    if s == [] then 0 else 10 * ParseNat(s[..|s| - 1]) + DigitValue(s[|s| - 1])
  }

  /** Reading the decimal rendering back gives the number. */
  lemma {:induction false} ParseNatToString(n: nat)
    ensures ParseNat(NatToString(n)) == n
  {
    var r := NatToString(n);
    if n >= 10 {
      ParseNatToString(n / 10);
      assert r[..|r| - 1] == NatToString(n / 10);
    }
  }

  // ---------------------------------------------------------------- colon spacing

  /** The colon at `k`, if followed by blank space, is followed by exactly one space. */
  predicate ColonSpacedAt(s: string, k: nat)
    requires k + 1 < |s|
  {
    s[k] == ':' && IsWs(s[k + 1]) ==> s[k + 1] == ' ' && (k + 2 == |s| || !IsWs(s[k + 2]))
  }

  /** Every colon that is followed by blank space is followed by exactly one space. */
  predicate ColonSpacingNormal(s: string) {
    forall k: nat :: k + 1 < |s| ==> ColonSpacedAt(s, k)
  }

  /** Putting a character in front keeps the spacing normal, unless it is a colon
      placed before blank space. */
  lemma ColonSpacingCons(c: char, tail: string)
    requires ColonSpacingNormal(tail)
    requires c == ':' ==> tail == [] || !IsWs(tail[0])
    ensures ColonSpacingNormal([c] + tail)
  {
    var r := [c] + tail;
    forall k: nat | k + 1 < |r|
      ensures ColonSpacedAt(r, k)
    {
      if k > 0 {
        assert ColonSpacedAt(tail, k - 1);
        assert r[k] == tail[k - 1] && r[k + 1] == tail[k];
        assert k + 2 < |r| ==> r[k + 2] == tail[k + 1];
      }
    }
  }

  /** A colon and one space in front of a normal string that does not start blank. */
  lemma ColonSpacingAfterColon(tail: string)
    requires ColonSpacingNormal(tail)
    requires tail == [] || !IsWs(tail[0])
    ensures ColonSpacingNormal(": " + tail)
  {
    var r := ": " + tail;
    forall k: nat | k + 1 < |r|
      ensures ColonSpacedAt(r, k)
    {
      if k >= 2 {
        assert ColonSpacedAt(tail, k - 2);
        assert r[k] == tail[k - 2] && r[k + 1] == tail[k - 1];
        assert k + 2 < |r| ==> r[k + 2] == tail[k];
      } else if k == 0 {
        assert |r| > 2 ==> r[2] == tail[0];
      }
    }
  }

  /** `s.replace(/:\s+/g, ': ')`: each colon followed by a run of blanks keeps the colon and
      one space. Only blanks after a colon are touched, so the non-blank content is kept. */
  function NormalizeColonSpacing(s: string): (r: string)
    ensures ColonSpacingNormal(r)
    ensures |s| > 0 ==> |r| > 0 && r[0] == s[0]
    ensures DropWs(r) == DropWs(s)
    decreases |s|
  {
    if s == [] then []
    else if s[0] == ':' && |s| > 1 && IsWs(s[1]) then
      var rest := s[1..];
      var n := LeadingWs(rest);
      var tail := NormalizeColonSpacing(rest[n..]);
      ColonSpacingAfterColon(tail);
      DropWsAppend(": ", tail);
      assert rest == rest[..n] + rest[n..];
      DropWsAppend(rest[..n], rest[n..]);
      DropWsOfBlank(rest[..n]);
      assert s == [':'] + rest;
      DropWsAppend([':'], rest);
      ": " + tail
    else
      var tail := NormalizeColonSpacing(s[1..]);
      ColonSpacingCons(s[0], tail);
      assert s == [s[0]] + s[1..];
      DropWsAppend([s[0]], s[1..]);
      DropWsAppend([s[0]], tail);
      [s[0]] + tail
  }

  /** Blank text on its own is kept: the replacement needs a colon. */
  lemma {:induction false} NormalizeColonSpacingOfBlank(w: string)
    requires AllWs(w)
    ensures NormalizeColonSpacing(w) == w
    decreases |w|
  {
    if w != [] {
      NormalizeColonSpacingOfBlank(w[1..]);
      assert w == [w[0]] + w[1..];
    }
  }

  /** A character followed by a run of blanks: a colon with a non-empty run becomes ": ",
      anything else is kept as it is. */
  lemma NormalizeColonSpacingOfPiece(c: char, w: string)
    requires AllWs(w)
    ensures NormalizeColonSpacing([c] + w) == if c == ':' && |w| > 0 then ": " else [c] + w
  {
    var s := [c] + w;
    assert s[1..] == w;
    if c == ':' && |w| > 0 {
      assert LeadingWs(w) == |w|;
      assert w[|w|..] == [];
    } else {
      NormalizeColonSpacingOfBlank(w);
    }
  }

  /** The blanks at the front of `a + b` are those of `a`, when they stop inside `a` or `b`
      does not start blank. */
  lemma {:induction false} LeadingWsAppend(a: string, b: string)
    requires LeadingWs(a) < |a| || b == [] || !IsWs(b[0])
    ensures LeadingWs(a + b) == LeadingWs(a)
    decreases |a|
  {
    if a == [] {
      assert a + b == b;
    } else if IsWs(a[0]) {
      assert (a + b)[1..] == a[1..] + b;
      LeadingWsAppend(a[1..], b);
    }
  }

  /** The replacement works piecewise on any split just before a character that is not
      blank. Every string splits that way into a blank prefix and pieces of one character
      and the blanks after it, so with the two lemmas above this fixes the result: only a
      colon's blank run changes, and it becomes one space. */
  lemma {:induction false} NormalizeColonSpacingAppend(a: string, b: string)
    requires b == [] || !IsWs(b[0])
    ensures NormalizeColonSpacing(a + b) == NormalizeColonSpacing(a) + NormalizeColonSpacing(b)
    decreases |a|
  {
    if a == [] {
      assert a + b == b;
    } else if b == [] {
      assert a + b == a;
    } else if a[0] == ':' && |a| > 1 && IsWs(a[1]) {
      var rest := a[1..];
      LeadingWsAppend(rest, b);
      NormalizeColonSpacingAppend(rest[LeadingWs(rest)..], b);
      NormalizeColonSpacingAppendAfterColon(a, b);
    } else {
      NormalizeColonSpacingAppend(a[1..], b);
      NormalizeColonSpacingAppendAfterChar(a, b);
    }
  }

  /** One step of the replacement at a colon followed by blanks. */
  lemma NormalizeColonSpacingUnfoldColon(s: string, n: nat)
    requires |s| > 1 && s[0] == ':' && IsWs(s[1]) && n == LeadingWs(s[1..])
    ensures NormalizeColonSpacing(s) == ": " + NormalizeColonSpacing(s[1..][n..])
  {
  }

  /** One step of the replacement at any other character. */
  lemma NormalizeColonSpacingUnfoldChar(s: string)
    requires s != [] && !(s[0] == ':' && |s| > 1 && IsWs(s[1]))
    ensures NormalizeColonSpacing(s) == [s[0]] + NormalizeColonSpacing(s[1..])
  {
  }

  /** The step of the induction above for a colon and its blank run at the front. */
  lemma NormalizeColonSpacingAppendAfterColon(a: string, b: string)
    requires |a| > 1 && a[0] == ':' && IsWs(a[1])
    requires LeadingWs(a[1..] + b) == LeadingWs(a[1..])
    requires var tail := a[1..][LeadingWs(a[1..])..];
             NormalizeColonSpacing(tail + b) == NormalizeColonSpacing(tail) + NormalizeColonSpacing(b)
    ensures NormalizeColonSpacing(a + b) == NormalizeColonSpacing(a) + NormalizeColonSpacing(b)
  {
    var tail := a[1..][LeadingWs(a[1..])..];
    NormalizeColonSpacingUnfoldColonAppend(a, b);
    NormalizeColonSpacingUnfoldColon(a, LeadingWs(a[1..]));
    ConcatAssoc(": ", NormalizeColonSpacing(tail), NormalizeColonSpacing(b));
  }

  /** The first step of the replacement on `a + b` is the first step on `a`, when the
      colon's blank run ends inside `a`. */
  lemma NormalizeColonSpacingUnfoldColonAppend(a: string, b: string)
    requires |a| > 1 && a[0] == ':' && IsWs(a[1])
    requires LeadingWs(a[1..] + b) == LeadingWs(a[1..])
    ensures NormalizeColonSpacing(a + b)
            == ": " + NormalizeColonSpacing(a[1..][LeadingWs(a[1..])..] + b)
  {
    var rest := a[1..];
    var n := LeadingWs(rest);
    assert (a + b)[1..] == rest + b;
    assert (rest + b)[n..] == rest[n..] + b;
    NormalizeColonSpacingUnfoldColon(a + b, n);
  }

  /** The step of the induction above for any other first character. */
  lemma NormalizeColonSpacingAppendAfterChar(a: string, b: string)
    requires a != [] && !(a[0] == ':' && |a| > 1 && IsWs(a[1]))
    requires b == [] || !IsWs(b[0])
    requires NormalizeColonSpacing(a[1..] + b) == NormalizeColonSpacing(a[1..]) + NormalizeColonSpacing(b)
    ensures NormalizeColonSpacing(a + b) == NormalizeColonSpacing(a) + NormalizeColonSpacing(b)
  {
    NormalizeColonSpacingUnfoldCharAppend(a, b);
    NormalizeColonSpacingUnfoldChar(a);
    ConcatAssoc([a[0]], NormalizeColonSpacing(a[1..]), NormalizeColonSpacing(b));
  }

  /** The first step of the replacement on `a + b` is the first step on `a`. */
  lemma NormalizeColonSpacingUnfoldCharAppend(a: string, b: string)
    requires a != [] && !(a[0] == ':' && |a| > 1 && IsWs(a[1]))
    requires b == [] || !IsWs(b[0])
    ensures NormalizeColonSpacing(a + b) == [a[0]] + NormalizeColonSpacing(a[1..] + b)
  {
    var s := a + b;
    assert s[1..] == a[1..] + b;
    if |a| > 1 {
      assert s[1] == a[1];
    } else if b != [] {
      assert s[1] == b[0];
    }
    NormalizeColonSpacingUnfoldChar(s);
  }

  // ---------------------------------------------------------------- newline collapse

  predicate NewlineTripleAt(s: string, k: nat)
    requires k + 2 < |s|
  {
    s[k] == '\n' && s[k + 1] == '\n' && s[k + 2] == '\n'
  }

  /** No three consecutive line feeds anywhere in `s`. */
  predicate NoTripleNewline(s: string) {
    forall k: nat :: k + 2 < |s| ==> !NewlineTripleAt(s, k)
  }

  /** The string with every line feed removed. */
  function DropNewlines(s: string): (r: string) {
    if s == [] then [] else (if s[0] == '\n' then [] else [s[0]]) + DropNewlines(s[1..])
  }

  lemma {:induction false} DropNewlinesAppend(a: string, b: string)
    ensures DropNewlines(a + b) == DropNewlines(a) + DropNewlines(b)
  {
    if a == [] {
      assert a + b == b;
    } else {
      assert (a + b)[1..] == a[1..] + b;
      DropNewlinesAppend(a[1..], b);
    }
  }

  lemma {:induction false} DropNewlinesOfRun(s: string)
    requires forall k :: 0 <= k < |s| ==> s[k] == '\n'
    ensures DropNewlines(s) == []
  {
    if s != [] {
      DropNewlinesOfRun(s[1..]);
    }
  }

  /** Two strings without a line-feed triple can be joined without creating one, as long
      as the join is not between two line feeds. */
  lemma NoTripleNewlineJoin(a: string, b: string)
    requires NoTripleNewline(a) && NoTripleNewline(b)
    requires a == [] || b == [] || a[|a| - 1] != '\n' || b[0] != '\n'
    ensures NoTripleNewline(a + b)
  {
    var ab := a + b;
    forall k: nat | k + 2 < |ab|
      ensures !NewlineTripleAt(ab, k)
    {
      if k + 2 < |a| {
        assert !NewlineTripleAt(a, k);
      } else if k >= |a| {
        assert !NewlineTripleAt(b, k - |a|);
      } else {
        assert ab[|a| - 1] == a[|a| - 1] && ab[|a|] == b[0];
      }
    }
  }

  /** A slice of a string without a line-feed triple has none either. */
  lemma NoTripleNewlineSlice(s: string, i: nat, j: nat)
    requires i <= j <= |s|
    requires NoTripleNewline(s)
    ensures NoTripleNewline(s[i..j])
  {
    var t := s[i..j];
    forall k: nat | k + 2 < |t|
      ensures !NewlineTripleAt(t, k)
    {
      assert !NewlineTripleAt(s, k + i);
    }
  }

  /** Length of the run of line feeds at the front of `s`. */
  function NewlineRun(s: string): (n: nat)
    ensures n <= |s|
    ensures forall k :: 0 <= k < n ==> s[k] == '\n'
    ensures n < |s| ==> s[n] != '\n'
  {
    if s == [] || s[0] != '\n' then 0 else 1 + NewlineRun(s[1..])
  }

  /** `s.replace(/\n{3,}/g, '\n\n')`: every maximal run of three or more line feeds becomes
      exactly two, and everything else is kept (see the lemmas below). The result has no
      line-feed triple. */
  function CollapseNewlines(s: string): (r: string)
    ensures NoTripleNewline(r)
    ensures |s| > 0 && s[0] != '\n' ==> |r| > 0 && r[0] == s[0]
    decreases |s|
  {
    if s == [] then []
    else if s[0] != '\n' then
      var tail := CollapseNewlines(s[1..]);
      NoTripleNewlineJoin([s[0]], tail);
      [s[0]] + tail
    else
      var k := NewlineRun(s);
      var run: string := if k >= 3 then "\n\n" else s[..k];
      var tail := CollapseNewlines(s[k..]);
      assert NoTripleNewline(run);
      NoTripleNewlineJoin(run, tail);
      run + tail
  }

  /** Trimming cannot create a line-feed triple. */
  lemma TrimKeepsNoTripleNewline(s: string)
    requires NoTripleNewline(s)
    ensures NoTripleNewline(Trim(s))
  {
    var start := LeadingWs(s);
    NoTripleNewlineSlice(s, start, start + |Trim(s)|);
  }

  /** The collapse drops line feeds and nothing else. */
  lemma {:induction false} CollapseNewlinesDropsOnlyNewlines(s: string)
    ensures DropNewlines(CollapseNewlines(s)) == DropNewlines(s)
    ensures DropWs(CollapseNewlines(s)) == DropWs(s)
    decreases |s|
  {
    if s == [] {
    } else if s[0] != '\n' {
      var tail := CollapseNewlines(s[1..]);
      CollapseNewlinesDropsOnlyNewlines(s[1..]);
      assert s == [s[0]] + s[1..];
      DropNewlinesAppend([s[0]], s[1..]);
      DropNewlinesAppend([s[0]], tail);
      DropWsAppend([s[0]], s[1..]);
      DropWsAppend([s[0]], tail);
    } else {
      var k := NewlineRun(s);
      var run: string := if k >= 3 then "\n\n" else s[..k];
      var tail := CollapseNewlines(s[k..]);
      CollapseNewlinesDropsOnlyNewlines(s[k..]);
      assert CollapseNewlines(s) == run + tail;
      assert s == s[..k] + s[k..];
      DropNewlinesAppend(s[..k], s[k..]);
      DropNewlinesOfRun(s[..k]);
      DropNewlinesAppend(run, tail);
      DropNewlinesOfRun(run);
      DropWsAppend(s[..k], s[k..]);
      DropWsOfBlank(s[..k]);
      DropWsAppend(run, tail);
      DropWsOfBlank(run);
    }
  }

  /** A run of `n` line feeds on its own: three or more become two, fewer stay. */
  lemma CollapseNewlinesOfRun(n: nat)
    ensures CollapseNewlines(Repeat('\n', n)) == Repeat('\n', if n >= 3 then 2 else n)
  {
    var s := Repeat('\n', n);
    if n > 0 {
      assert NewlineRun(s) == n;
      assert s[n..] == [];
      assert s[..n] == s;
      if n >= 3 {
        assert Repeat('\n', 2) == "\n\n";
      }
    }
  }

  /** Any other single character is kept. */
  lemma CollapseNewlinesOfChar(c: char)
    requires c != '\n'
    ensures CollapseNewlines([c]) == [c]
  {
    assert [c][1..] == [];
  }

  /** The run of line feeds at the front of `a + b` is that of `a`, unless it reaches the
      end of `a`; then it is all of `a` when `b` does not start with a line feed. */
  lemma {:induction false} NewlineRunAppend(a: string, b: string)
    requires NewlineRun(a) < |a| || b == [] || b[0] != '\n'
    ensures NewlineRun(a + b) == NewlineRun(a)
    decreases |a|
  {
    if a == [] {
      assert a + b == b;
    } else if a[0] == '\n' {
      assert (a + b)[1..] == a[1..] + b;
      NewlineRunAppend(a[1..], b);
    }
  }

  /** The collapse works piecewise on any split that does not fall inside a run of line
      feeds. With the two lemmas above, this fixes the result of every input: split it
      into maximal runs of line feeds and single other characters. */
  lemma {:induction false} CollapseNewlinesAppend(a: string, b: string)
    requires a == [] || b == [] || a[|a| - 1] != '\n' || b[0] != '\n'
    ensures CollapseNewlines(a + b) == CollapseNewlines(a) + CollapseNewlines(b)
    decreases |a|
  {
    if a == [] {
      assert a + b == b;
    } else if b == [] {
      assert a + b == a;
    } else if a[0] != '\n' {
      CollapseNewlinesAppend(a[1..], b);
      CollapseNewlinesAppendAfterChar(a, b);
    } else {
      var k := NewlineRun(a);
      NewlineRunAppend(a, b);
      if k < |a| {
        CollapseNewlinesAppend(a[k..], b);
      }
      CollapseNewlinesAppendAfterRun(a, b);
    }
  }

  /** One step of the collapse at a character other than a line feed. */
  lemma CollapseNewlinesUnfoldChar(s: string)
    requires s != [] && s[0] != '\n'
    ensures CollapseNewlines(s) == [s[0]] + CollapseNewlines(s[1..])
  {
  }

  /** One step of the collapse at a run of `k` line feeds. */
  lemma CollapseNewlinesUnfoldRun(s: string, k: nat)
    requires s != [] && s[0] == '\n' && k == NewlineRun(s)
    ensures CollapseNewlines(s) == (if k >= 3 then "\n\n" else s[..k]) + CollapseNewlines(s[k..])
  {
  }

  /** The step of the induction above for a first character other than a line feed. */
  lemma CollapseNewlinesAppendAfterChar(a: string, b: string)
    requires a != [] && a[0] != '\n'
    requires CollapseNewlines(a[1..] + b) == CollapseNewlines(a[1..]) + CollapseNewlines(b)
    ensures CollapseNewlines(a + b) == CollapseNewlines(a) + CollapseNewlines(b)
  {
    CollapseNewlinesUnfoldCharAppend(a, b);
    CollapseNewlinesUnfoldChar(a);
    ConcatAssoc([a[0]], CollapseNewlines(a[1..]), CollapseNewlines(b));
  }

  /** The first step of the collapse on `a + b` is the first step on `a`. */
  lemma CollapseNewlinesUnfoldCharAppend(a: string, b: string)
    requires a != [] && a[0] != '\n'
    ensures CollapseNewlines(a + b) == [a[0]] + CollapseNewlines(a[1..] + b)
  {
    assert (a + b)[1..] == a[1..] + b;
    CollapseNewlinesUnfoldChar(a + b);
  }

  /** The step of the induction above for a leading run of line feeds that ends where it
      ends in `a`. */
  lemma CollapseNewlinesAppendAfterRun(a: string, b: string)
    requires a != [] && a[0] == '\n' && b != []
    requires NewlineRun(a + b) == NewlineRun(a)
    requires NewlineRun(a) < |a| ==>
               CollapseNewlines(a[NewlineRun(a)..] + b)
               == CollapseNewlines(a[NewlineRun(a)..]) + CollapseNewlines(b)
    ensures CollapseNewlines(a + b) == CollapseNewlines(a) + CollapseNewlines(b)
  {
    if NewlineRun(a) == |a| {
      CollapseNewlinesAppendAfterWholeRun(a, b);
    } else {
      var k := NewlineRun(a);
      var run: string := if k >= 3 then "\n\n" else a[..k];
      CollapseNewlinesUnfoldRunAppend(a, b);
      CollapseNewlinesUnfoldRun(a, k);
      ConcatAssoc(run, CollapseNewlines(a[k..]), CollapseNewlines(b));
    }
  }

  /** The same step when all of `a` is line feeds. */
  lemma CollapseNewlinesAppendAfterWholeRun(a: string, b: string)
    requires a != [] && a[0] == '\n' && b != []
    requires NewlineRun(a + b) == NewlineRun(a) == |a|
    ensures CollapseNewlines(a + b) == CollapseNewlines(a) + CollapseNewlines(b)
  {
    var k := |a|;
    assert (a + b)[..k] == a[..k];
    assert (a + b)[k..] == b;
    assert a[..k] == a && a[k..] == [];
    CollapseNewlinesUnfoldRun(a + b, k);
    CollapseNewlinesUnfoldRun(a, k);
  }

  /** The first step of the collapse on `a + b` is the first step on `a`, when the leading
      run of line feeds ends inside `a`. */
  lemma CollapseNewlinesUnfoldRunAppend(a: string, b: string)
    requires a != [] && a[0] == '\n'
    requires NewlineRun(a + b) == NewlineRun(a)
    ensures var k := NewlineRun(a);
            CollapseNewlines(a + b)
            == (if k >= 3 then "\n\n" else a[..k]) + CollapseNewlines(a[k..] + b)
  {
    var k := NewlineRun(a);
    assert (a + b)[..k] == a[..k];
    assert (a + b)[k..] == a[k..] + b;
    CollapseNewlinesUnfoldRun(a + b, k);
  }

  /** A string that already has no line-feed triple is left as it is. */
  lemma {:induction false} CollapseNewlinesKeepsClean(s: string)
    requires NoTripleNewline(s)
    ensures CollapseNewlines(s) == s
    decreases |s|
  {
    if s == [] {
    } else if s[0] != '\n' {
      NoTripleNewlineSlice(s, 1, |s|);
      assert s[1..] == s[1..|s|];
      CollapseNewlinesKeepsClean(s[1..]);
      assert s == [s[0]] + s[1..];
    } else {
      var k := NewlineRun(s);
      if k >= 3 {
        assert NewlineTripleAt(s, 0);
      }
      NoTripleNewlineSlice(s, k, |s|);
      assert s[k..] == s[k..|s|];
      CollapseNewlinesKeepsClean(s[k..]);
      assert s == s[..k] + s[k..];
    }
  }
}

=== FILE: wrappers.dfy ===
/** Optional values: a DOM lookup that may come back null, a CSS value that may not parse. */
module Wrappers {

  datatype Option<+T> = None | Some(value: T)
}
